=== FILE: README.md ===
# DashCraft dashboard core in Dafny

A functional model of the logic the DashCraft admin dashboard runs in its
pages, and proofs of what that logic promises. The model covers:

- **`Csv`**: the payments CSV export. This covers RFC 4180-style quoting
  (section 2 of RFC 4180), with LF in place of CRLF: a field is quoted only
  for a comma, a double quote or an LF. Records are joined by commas and
  lines by LF.
  A CSV reader serves as the inverse, so the writer can be judged by a
  round trip.
- **`PaymentsExport`**: the export as a whole:
  - the header line and the five values of each payment;
  - `toFixed(2)` amounts, kept as whole hundredths;
  - the document that reads back as header plus rows;
  - the list request behind it and the error a failed request shows.
- **`Selection`**: the row selection of the payments and emails pages:
  - toggling a single row;
  - toggling every row of the page, with `Array.from(new Set(...))` as an
    insertion-ordered union;
  - the bulk actions.
- **`ListView`**: the pager and control panel shared by the list pages:
  - every control resets the page to 1, and the Previous/Next buttons with
    their `disabled` conditions;
  - clearing the selection when the fetch changes;
  - the `status` request parameter (`'all'` means no filter);
  - the day bounds sent for a date filter;
  - `aria-sort` of sortable headers and the subscription end-date cell.
- **`Forms`**: the create forms:
  - their default values and `resetCreate`;
  - when the submit button is enabled (`trim()` of each required field);
  - what a create does on success and failure;
  - the translation keys of roles and statuses.
- **`AdminSettings`**: the team panel of the settings page:
  - the "name required" message and its ARIA attributes;
  - create and reset;
  - the inline role/status editor, whose update patch never carries the name.
- **`Dashboard`**: the home page grid. Visible modules are taken in stable
  order of `order`, and each key is mapped to its widget.
- **`UiStore`**: the Redux `ui` slice and its `toggleSidebar` reducer.
- **`Text`** and **`Wrappers`**: shared pieces:
  - ECMAScript `trim` and `join`;
  - `Option`;
  - `Outcome`, the success or error message of an API call.

Each create, update and bulk call, and the reload after it, is an `Outcome`
parameter. The export's list request is a `Listing` parameter: the payments
returned, or the failure's message. The model takes each answer as given and
describes what the page does with it.

## Model

| member | source | states |
|---|---|---|
| Text.Trim | dashcraft-app/src/modules/users/UsersPage.tsx:251 | `trim()` gives a slice `s[i..j]` of the text: everything cut before `i` and from `j` on is whitespace or a line terminator, and the slice neither starts nor ends with one |
| Text.TrimEmptyIff | dashcraft-app/src/modules/payments/PaymentsPage.tsx:546 | `!s.trim()` holds exactly when every character of `s` is whitespace or a line terminator |
| Text.Join | dashcraft-app/src/modules/payments/PaymentsPage.tsx:288 | joining no parts gives the empty text, one part gives that part, and otherwise the text starts with the first part |
| Text.JoinLength | dashcraft-app/src/modules/payments/PaymentsPage.tsx:302-304 | a join is as long as all parts together plus one separator between each two neighbours |
| Csv.EscapeAll | dashcraft-app/src/modules/payments/PaymentsPage.tsx:290-301 | every value of a line is escaped on its own, position by position |
| Csv.EncodeAll | dashcraft-app/src/modules/payments/PaymentsPage.tsx:289-303 | one written line per record, in record order |
| Csv.ReadEscapedField | dashcraft-app/src/modules/payments/PaymentsPage.tsx:297-300 | a quoted-or-plain escaped field reads back as the original value when it is followed by the end of the text, a comma or an LF |
| Csv.UnescapeEscaped | dashcraft-app/src/modules/payments/PaymentsPage.tsx:297-300 | unescaping an escaped value gives the value back, so distinct values are never written alike |
| Csv.EscapedFieldShape | dashcraft-app/src/modules/payments/PaymentsPage.tsx:298-300 | `EscapeField`, with `NeedsQuoting` as its test: a value holding a comma, quote or LF is written between quotes with each quote doubled (length grows by the quote count plus 2); any other value is written as is and never starts with a quote |
| Csv.DoubleQuotesLength | dashcraft-app/src/modules/payments/PaymentsPage.tsx:299 | `DoubleQuotes`, the model of `replace(/"/g, '""')`, adds exactly one character per quote |
| Csv.ReadEncodedRecord | dashcraft-app/src/modules/payments/PaymentsPage.tsx:296-302 | a line written by `EncodeRecord` (comma-joined escaped values) reads back as exactly those values |
| Csv.ReadEncodedDocument | dashcraft-app/src/modules/payments/PaymentsPage.tsx:288-304 | a non-empty list of non-empty records written by `EncodeDocument` (line by line, joined by LF) reads back as the same list |
| PaymentsExport.FormatUnsigned | dashcraft-app/src/modules/payments/PaymentsPage.tsx:292 | a non-negative amount is written as a whole part of digits, a point and exactly two fraction digits |
| PaymentsExport.FormatCents | dashcraft-app/src/modules/payments/PaymentsPage.tsx:292 | `toFixed(2)` has a point three characters from the end and starts with a minus sign exactly for negative amounts |
| PaymentsExport.DecimalDigits | dashcraft-app/src/modules/payments/PaymentsPage.tsx:292 | the whole part is written as at least one decimal digit, without a leading zero |
| PaymentsExport.DigitsRoundTrip | dashcraft-app/src/modules/payments/PaymentsPage.tsx:292 | the decimal rendering of a whole number denotes that number |
| PaymentsExport.AmountRoundTrip | dashcraft-app/src/modules/payments/PaymentsPage.tsx:292 | reading the exported amount back gives exactly the amount, in hundredths, for every sign |
| PaymentsExport.AmountNeverQuoted | dashcraft-app/src/modules/payments/PaymentsPage.tsx:292-300 | an amount never contains a comma, quote or LF, so it is exported unquoted |
| PaymentsExport.Rows | dashcraft-app/src/modules/payments/PaymentsPage.tsx:289-295 | one row per payment, its `Fields`: customer, amount, currency, status and time in that order |
| PaymentsExport.HeaderLineText | dashcraft-app/src/modules/payments/PaymentsPage.tsx:287-288 | the header line is `customer,amount,currency,status,time` |
| PaymentsExport.HeaderNeedsNoEscaping | dashcraft-app/src/modules/payments/PaymentsPage.tsx:287-288 | the header is written unescaped, so it is also a valid CSV record |
| PaymentsExport.CsvLines | dashcraft-app/src/modules/payments/PaymentsPage.tsx:287-303 | one line more than there are payments: the header first, then payment i as line i+1 |
| PaymentsExport.ExportIsDocument | dashcraft-app/src/modules/payments/PaymentsPage.tsx:287-304 | the exported text is the CSV document of the header followed by the payments' rows |
| PaymentsExport.ExportReadsBack | dashcraft-app/src/modules/payments/PaymentsPage.tsx:275-304 | reading the text `ExportCsv` builds gives the header, then each payment's five values, and nothing else |
| PaymentsExport.ExportQuery | dashcraft-app/src/modules/payments/PaymentsPage.tsx:277-286 | the export asks for page 1 with a page size of 10000, under the page's search, sort, status filter and day range, each recoverable from the request |
| PaymentsExport.ExportQueryIgnoresPager | dashcraft-app/src/modules/payments/PaymentsPage.tsx:277-286 | the page size shown in the pager does not change the export request |
| PaymentsExport.RunExport | dashcraft-app/src/modules/payments/PaymentsPage.tsx:275-316 | a download happens exactly when the request answers: it reads back as the header and the returned payments' rows, and the error shown is untouched; a failed request downloads nothing and shows its message |
| PaymentsExport.HeaderIsFirstLine | dashcraft-app/src/modules/payments/PaymentsPage.tsx:288-304 | the text starts with the header; it is only the header when there are no payments, and otherwise the header is followed by LF |
| Selection.Except | dashcraft-app/src/modules/payments/PaymentsPage.tsx:251 | filtering keeps exactly the ids not dropped and never grows the list |
| Selection.ExceptCounts | dashcraft-app/src/modules/payments/PaymentsPage.tsx:251 | filtering keeps every occurrence of an undropped id and removes every occurrence of a dropped one |
| Selection.ExceptDistinct | dashcraft-app/src/modules/emails/EmailsPage.tsx:176 | filtering a duplicate-free selection leaves it duplicate-free |
| Selection.AddAll | dashcraft-app/src/modules/payments/PaymentsPage.tsx:255 | building a set extends the ids already there and holds exactly the old and the added ids |
| Selection.AddAllDistinct | dashcraft-app/src/modules/payments/PaymentsPage.tsx:255 | `new Set` never holds a duplicate, given a duplicate-free start |
| Selection.AddAllFresh | dashcraft-app/src/modules/payments/PaymentsPage.tsx:255 | adding new, pairwise distinct ids just appends them |
| Selection.AddAllConcat | dashcraft-app/src/modules/payments/PaymentsPage.tsx:255 | inserting a spread of two lists is inserting the first, then the second |
| Selection.UnionProperties | dashcraft-app/src/modules/payments/PaymentsPage.tsx:254-255 | `Union`, the model of `Array.from(new Set([...prev, ...ids]))`, holds the union of the ids, without duplicates, and keeps a duplicate-free `prev` as its prefix |
| Selection.EveryIn | dashcraft-app/src/modules/payments/PaymentsPage.tsx:245 | `every(... includes ...)` holds exactly when each page id is selected |
| Selection.AllOnPageSelected | dashcraft-app/src/modules/payments/PaymentsPage.tsx:242-246 | the header box is ticked exactly when a page is loaded, is non-empty and all its ids are selected |
| Selection.ToggleAllOnPage | dashcraft-app/src/modules/payments/PaymentsPage.tsx:248-256 | no page leaves the selection alone; a fully selected page is removed from the selection and any other page is added to it |
| Selection.ToggleAllFlips | dashcraft-app/src/modules/emails/EmailsPage.tsx:173-181 | on a loaded, non-empty page, toggling all flips the header box |
| Selection.ToggleAllOtherPages | dashcraft-app/src/modules/emails/EmailsPage.tsx:173-181 | ids not on the page keep their selected state |
| Selection.ToggleAllAddKeepsOrder | dashcraft-app/src/modules/payments/PaymentsPage.tsx:253-255 | when adding, the existing duplicate-free selection stays in front, in order |
| Selection.ToggleAllDistinct | dashcraft-app/src/modules/payments/PaymentsPage.tsx:248-256 | toggling all keeps the selection duplicate-free |
| Selection.ToggleOne | dashcraft-app/src/modules/payments/PaymentsPage.tsx:258-260 | the toggled id changes membership and no other id changes |
| Selection.ToggleOneShape | dashcraft-app/src/modules/emails/EmailsPage.tsx:183-185 | a new id is appended at the end; a selected id loses every occurrence while the rest keep their counts |
| Selection.ToggleOneTwice | dashcraft-app/src/modules/payments/PaymentsPage.tsx:258-260 | toggling twice restores the set of selected ids, and restores the list itself when the id was unselected |
| Selection.ToggleOneDistinct | dashcraft-app/src/modules/payments/PaymentsPage.tsx:258-260 | toggling one id keeps the selection duplicate-free |
| Selection.BulkMark | dashcraft-app/src/modules/emails/EmailsPage.tsx:187-196 | the whole selection is sent; success empties it and the refetch leaves no error unless it fails itself (then its message shows); failure keeps the selection and shows the message |
| Selection.BulkDelete | dashcraft-app/src/modules/payments/PaymentsPage.tsx:262-273 | a request is sent exactly when the confirmation is accepted; a declined one keeps the selection and the error already shown; an accepted one behaves as `BulkMark` |
| Selection.BulkClearsSelection | dashcraft-app/src/modules/emails/EmailsPage.tsx:198-209 | the selection ends empty exactly when the delete was confirmed and succeeded (or it was empty); otherwise it is unchanged |
| Selection.BulkThenSelect | dashcraft-app/src/modules/payments/PaymentsPage.tsx:242-273 | after a successful bulk action no page counts as fully selected and toggling a row starts a fresh selection; after a failed or declined one every page's header checkbox is as before |
| ListView.Step | dashcraft-app/src/modules/payments/PaymentsPage.tsx:723-734 | controls go to page 1; Previous never goes below 1 and Next moves at most one page; a page within range stays within range; fetch state is untouched |
| ListView.ControlEventChangesOnlyItself | dashcraft-app/src/modules/subscriptions/SubscriptionsPage.tsx:106-108 | each control's change (`SetControl` inside `Step`) sets that control to the new value and leaves every other control as it was |
| ListView.PagerButtons | dashcraft-app/src/modules/users/UsersPage.tsx:384-396 | the `disabled` attributes (`PreviousDisabled`, `NextDisabled`) at work: with several pages and no fetch running, Previous moves back exactly when above page 1 and Next forward exactly when below the last page |
| ListView.SelectionAfter | dashcraft-app/src/modules/payments/PaymentsPage.tsx:112-115 | the selection survives unchanged or is emptied |
| ListView.EventClearsSelection | dashcraft-app/src/modules/emails/EmailsPage.tsx:94-97 | the selection survives an event exactly when the event changed nothing (or the selection was empty) |
| ListView.StatusParam | dashcraft-app/src/modules/payments/PaymentsPage.tsx:98 | no status parameter is sent exactly for the `all` filter; otherwise the filter itself is sent |
| ListView.StatusParamRoundTrip | dashcraft-app/src/modules/notifications/NotificationsPage.tsx:59 | the filter and the status parameter determine each other |
| ListView.FromBound | dashcraft-app/src/modules/payments/PaymentsPage.tsx:99 | no lower bound for an empty date; otherwise the date followed by `T00:00:00.000Z` |
| ListView.ToBound | dashcraft-app/src/modules/payments/PaymentsPage.tsx:100 | no upper bound for an empty date; otherwise the date followed by `T23:59:59.999Z` |
| ListView.BoundsRoundTrip | dashcraft-app/src/modules/emails/EmailsPage.tsx:79-84 | both bounds give back the day they were made from |
| ListView.FromBeforeTo | dashcraft-app/src/modules/subscriptions/SubscriptionsPage.tsx:62-63 | a day's lower bound sorts strictly before its upper bound |
| ListView.AriaSort | dashcraft-app/src/modules/payments/PaymentsPage.tsx:572 | a header announces a sort exactly when it is the sorted column |
| ListView.OneSortedHeader | dashcraft-app/src/modules/subscriptions/SubscriptionsPage.tsx:230-243 | of two columns, exactly the sorted one announces a sort, and it announces the chosen direction |
| ListView.EndCellOf | dashcraft-app/src/modules/subscriptions/SubscriptionsPage.tsx:288 | a missing or empty end date shows a dash; any other shows that date |
| ListView.EndCellRoundTrip | dashcraft-app/src/modules/subscriptions/SubscriptionsPage.tsx:287-288 | the cell and the end date determine each other: a dash stands only for a missing or empty date, a date cell for that very date |
| Forms.AllFilled | dashcraft-app/src/modules/emails/EmailsPage.tsx:384 | holds exactly when every required field has a non-whitespace character |
| Forms.CreateDisabled | dashcraft-app/src/modules/payments/PaymentsPage.tsx:546 | the submit button is disabled exactly while creating or while some required field is blank |
| Forms.OneRequiredField | dashcraft-app/src/modules/notifications/NotificationsPage.tsx:237 | with one required field: disabled exactly while creating or while that field is blank |
| Forms.TwoRequiredFields | dashcraft-app/src/modules/emails/EmailsPage.tsx:384 | with two required fields: disabled exactly while creating or while either is blank |
| Forms.ResetUserForm | dashcraft-app/src/modules/users/UsersPage.tsx:83-87 | the users form goes back to an empty name, role Viewer and status active, its initial value |
| Forms.ResetNotificationForm | dashcraft-app/src/modules/notifications/NotificationsPage.tsx:74-77 | the notifications form goes back to an empty title and unread, its initial value |
| Forms.ResetEmailForm | dashcraft-app/src/modules/emails/EmailsPage.tsx:99-103 | the emails form goes back to empty subject and sender and unread, its initial value |
| Forms.ResetPaymentForm | dashcraft-app/src/modules/payments/PaymentsPage.tsx:117-122 | the payments form goes back to empty customer and amount, EUR and succeeded, its initial value |
| Forms.ResetFormsDisabled | dashcraft-app/src/modules/payments/PaymentsPage.tsx:117-122 | after a reset, each form's submit button is disabled |
| Forms.AfterCreate | dashcraft-app/src/modules/payments/PaymentsPage.tsx:124-144 | success resets the form and returns to page 1, and the refetch leaves no error unless it fails itself; failure keeps the form and shows the message; `creating` ends false either way |
| Forms.AfterCreateDisablesSubmit | dashcraft-app/src/modules/users/UsersPage.tsx:89-107 | after a successful create every form is back to its initial value and, with `creating` false, its submit button is disabled; after a failure the button is as before |
| Forms.RoleLabelKey | dashcraft-app/src/modules/users/UsersPage.tsx:147-156 | each role's key names that role back |
| Forms.RoleLabelsDistinct | dashcraft-app/src/modules/users/UsersPage.tsx:147-156 | two roles share a key exactly when they are the same role |
| Forms.UserStatusLabelKey | dashcraft-app/src/modules/users/UsersPage.tsx:158-160 | each user status's key names that status back |
| Forms.ReadStatusLabelKey | dashcraft-app/src/modules/notifications/NotificationsPage.tsx:134-136 | each read status's key names that status back |
| Forms.PaymentStatusLabelKey | dashcraft-app/src/modules/payments/PaymentsPage.tsx:187-194 | each payment status's key names that status back |
| AdminSettings.ShowsNameError | dashcraft-app/src/modules/settings/components/admin-settings.tsx:175-179 | the message shows exactly when the field was visited and holds only whitespace |
| AdminSettings.AriaInvalid | dashcraft-app/src/modules/settings/components/admin-settings.tsx:171 | `aria-invalid` is `true` exactly when the message shows, and absent otherwise |
| AdminSettings.AriaDescribedBy | dashcraft-app/src/modules/settings/components/admin-settings.tsx:172 | the input points at `t-name-error` exactly when it is also marked invalid, that is while the message shows |
| AdminSettings.SubmitDisabled | dashcraft-app/src/modules/settings/components/admin-settings.tsx:214 | the button is disabled exactly while creating or while the name is blank |
| AdminSettings.ErrorImpliesDisabled | dashcraft-app/src/modules/settings/components/admin-settings.tsx:171-214 | while the message shows the button is disabled, and before a visit the message never shows |
| AdminSettings.TypeName | dashcraft-app/src/modules/settings/components/admin-settings.tsx:166 | typing sets the name and leaves role, status, the visited flag and the editor alone |
| AdminSettings.Blur | dashcraft-app/src/modules/settings/components/admin-settings.tsx:167-169 | leaving the field marks it visited and changes nothing else |
| AdminSettings.BlankNameAfterBlur | dashcraft-app/src/modules/settings/components/admin-settings.tsx:166-179 | a whitespace-only name shows the message once the field is left and never enables the button |
| AdminSettings.CreateDone | dashcraft-app/src/modules/settings/components/admin-settings.tsx:107-128 | success resets name, role, status and the visited flag, and the reload leaves no error unless it fails itself; failure keeps the form and shows the message; either way creating ends |
| Wrappers.ErrorAfter | dashcraft-app/src/modules/settings/components/admin-settings.tsx:62-71 | a reload (`load`, `fetchPage`) leaves no error exactly when its request succeeds, and otherwise that request's message |
| AdminSettings.CreateResetsForm | dashcraft-app/src/modules/settings/components/admin-settings.tsx:117-120 | after a successful create no message shows, the form is back to its initial value and the button is disabled |
| AdminSettings.StartEdit | dashcraft-app/src/modules/settings/components/admin-settings.tsx:86-90 | the editor opens on the user, starting from the stored role and status |
| AdminSettings.ChooseRole | dashcraft-app/src/modules/settings/components/admin-settings.tsx:254 | choosing a role in the editor sets the edited role and nothing else |
| AdminSettings.ChooseStatus | dashcraft-app/src/modules/settings/components/admin-settings.tsx:273 | choosing a status in the editor sets the edited status and nothing else |
| AdminSettings.CancelEdit | dashcraft-app/src/modules/settings/components/admin-settings.tsx:92-94 | the editor closes and no request is sent |
| AdminSettings.SaveEdit | dashcraft-app/src/modules/settings/components/admin-settings.tsx:96-105 | the chosen role and status are sent for the id; success closes the editor and the reload leaves no error unless it fails itself; failure keeps it open and shows the message |
| AdminSettings.RetryClearsError | dashcraft-app/src/modules/settings/components/admin-settings.tsx:96-105 | a message left by a failed save is gone once a later save and its reload succeed, and the editor is closed |
| AdminSettings.ChooseCreateRole | dashcraft-app/src/modules/settings/components/admin-settings.tsx:185-194 | choosing a role in the create form sets that role and nothing else |
| AdminSettings.ChooseCreateStatus | dashcraft-app/src/modules/settings/components/admin-settings.tsx:200-209 | choosing a status in the create form sets that status and nothing else |
| AdminSettings.CreateSelectsKeepValidity | dashcraft-app/src/modules/settings/components/admin-settings.tsx:184-208 | the create form's selects never change whether the name message shows or the button is disabled; a successful create resets them to Viewer and active |
| AdminSettings.Apply | dashcraft-app/src/modules/settings/components/admin-settings.tsx:98 | the assumed meaning of the `{role, status}` patch: it replaces role and status and keeps the id and name |
| AdminSettings.SaveWithoutChanges | dashcraft-app/src/modules/settings/components/admin-settings.tsx:86-105 | saving without edits sends the user's own values and changes nothing; choosing a role first changes only the role |
| AdminSettings.CancelAfterStart | dashcraft-app/src/modules/settings/components/admin-settings.tsx:86-94 | opening then cancelling closes the editor and sends nothing |
| Dashboard.RenderModule | dashcraft-app/src/app/page.tsx:28-59 | a widget is rendered only for its own key; every other key renders nothing |
| Dashboard.RenderModuleInverse | dashcraft-app/src/app/page.tsx:28-59 | every widget is rendered for its key, so the thirteen keys select thirteen different widgets |
| Dashboard.Visible | dashcraft-app/src/app/page.tsx:63 | the visible modules are kept with their multiplicity, the hidden ones are dropped, and only visible modules remain |
| Dashboard.VisibleWithOrder | dashcraft-app/src/app/page.tsx:63 | the filter keeps configuration order: for every `order` value it yields the visible modules of that value in configured order |
| Dashboard.SortByOrder | dashcraft-app/src/app/page.tsx:64 | the sort gives a permutation of its input in non-decreasing `order` |
| Dashboard.SortIsStable | dashcraft-app/src/app/page.tsx:64 | modules sharing an `order` keep their configuration order |
| Dashboard.ToItems | dashcraft-app/src/app/page.tsx:65 | one grid item per module, whose id is the key and whose content is that key's widget |
| Dashboard.ItemsProperties | dashcraft-app/src/app/page.tsx:61-65 | `Items` of `Layout`: the grid holds one item per visible module and none for hidden ones, sorted by `order`, and the items of one `order` value are exactly that value's visible modules in configuration order |
| Dashboard.NoModulesNoItems | dashcraft-app/src/app/page.tsx:62 | a missing module list gives an empty grid |
| UiStore.Toggle | dashcraft-app/src/store/store.ts:13-15 | the flag is flipped and nothing else changes |
| UiStore.ToggleInvolution | dashcraft-app/src/store/store.ts:13-15 | toggling twice gives back the state |
| UiStore.Reduce | dashcraft-app/src/store/store.ts:7-17 | `toggleSidebar` flips the flag; any other action leaves the state as is |
| UiStore.RunParity | dashcraft-app/src/store/store.ts:7-17 | after any run of actions (`Run`) the flag matches its start exactly when an even number of them toggled it |
| UiStore.OpenAfterEvenToggles | dashcraft-app/src/store/store.ts:9-15 | from the initial open state, the sidebar is open exactly after an even number of toggles |

## Left out

- Rendering, styling, focus handling, live-region announcements and translation
  lookups (`t(...)`) are left out; labels are modelled by their translation keys.
- API calls and the mock backend are opaque:
  - each awaited create, update or bulk call is an `Outcome` parameter;
  - the reload that follows a successful one (`fetchPage`, `load`) is a second
    `Outcome`;
  - the list a fetch returns is a parameter (`Option` of the page's ids).

  The error of the fetches that the page effect and the pager trigger is not
  part of `ListView`.
- Async ordering of state updates (React batching, an answer arriving after a later
  event) is not modelled; each handler is one atomic step.
- `window.confirm` is the `confirmed` parameter of `Selection.BulkDelete`.
- The Blob, object URL and download link of the export are left out; the export
  ends with the text handed to the Blob.
- PaymentsExport.RunExport: the export request asks for at most 10000 payments,
  but that the backend honours the cap is not modelled. The payments in
  `Listed` are taken as the backend returned them.
- AdminSettings.Apply: it is the meaning the panel assumes for its
  `{role, status}` patch. The mock backend's `users.update` is not part of this
  model.
- PaymentsExport.FormatCents: amounts are whole hundredths rather than JavaScript
  doubles, so these are not modelled:
  - the rounding of `toFixed(2)` on other values, and `-0.00` for tiny negatives;
  - the loss of integer precision above 2^53 hundredths;
  - the exponent form (`1e+21`) that `toFixed` returns for magnitudes of 10^21 or more.

  The model always writes plain digits.
- ListView.FromBound: `new Date(...).toISOString()` is modelled as the string
  handed to `Date`. It normalises a valid `YYYY-MM-DD` input to the same text.
  The exception an invalid date raises is not modelled.
- ListView.ToBound: the same abstraction of `new Date(...).toISOString()` as
  `FromBound`.
- ListView.EndCellOf: a date cell records the raw end date. `formatDate` and the
  locale formatting it applies are not modelled.
- Dashboard.SortByOrder: `order` is a mathematical integer, while the source's
  `order: number` is a JavaScript double. Fractional or non-finite orders, and
  the comparator `a.order - b.order` on them, are not modelled.
- ListView.Step: a refetch that reports fewer pages than the current page is not
  clamped by the pages, so its range invariant holds across user events only.
- `handleCreate` of the list pages is modelled by `Forms.AfterCreate`, the reset
  functions and the enablement rule. Its per-page request bodies and the payments
  `parseFloat` of the typed amount are left out.
- The list pages' `startEdit`, `cancelEdit`, `saveEdit` and `handleDelete` (and
  the settings panel's `handleDelete`) are left out; only the settings panel's
  editor is modelled.
- Selection.BulkMark: the status `bulkMark` sends is forwarded to the API untouched
  and is not part of the result.
- Other widgets, the drag-and-drop grid, theming, i18n loading and routing are
  outside this model.

=== FILE: admin_settings.dfy ===
/**
 * The team panel of the settings page (`AdminSettings`): a create form
 * whose name field reports "name required" once it has been left blank
 * after a visit, and an inline editor that changes a member's role and
 * status, never the name.
 */
module AdminSettings {
  import opened Wrappers
  import Text
  import Forms

  datatype User = User(id: string, name: string, role: Forms.Role, status: Forms.UserStatus)

  /** The body of the update request: role and status only. */
  datatype Patch = Patch(role: Forms.Role, status: Forms.UserStatus)

  datatype Team = Team(
    form: Forms.UserForm,
    nameTouched: bool,
    creating: bool,
    editingId: Option<string>,
    editRole: Forms.Role,
    editStatus: Forms.UserStatus,
    error: Option<string>)

  /** The panel as it is first rendered. */
  const Initial: Team := Team(Forms.InitialUserForm, false, false, None, Forms.Viewer, Forms.Active, None)

  // ---------------------------------------------------------------------
  // The name field
  // ---------------------------------------------------------------------

  /** `nameTouched && !createName.trim()`: the name-required message shows
      once the field has been left, while what it holds trims to nothing. */
  function ShowsNameError(t: Team): (r: bool)
    ensures r <==> t.nameTouched && !Text.HasContent(t.form.name)
  {
    Text.TrimEmptyIff(t.form.name);
    t.nameTouched && Text.Trim(t.form.name) == []
  }

  /** `aria-invalid` of the name input. */
  function AriaInvalid(t: Team): (r: Option<string>)
    ensures r.Some? <==> t.nameTouched && !Text.HasContent(t.form.name)
    ensures r.Some? ==> r.value == "true"
  {
    if ShowsNameError(t) then Some("true") else None
  }

  /** `aria-describedby` of the name input: the id of the message, present
      exactly when the input is also marked invalid. */
  function AriaDescribedBy(t: Team): (r: Option<string>)
    ensures r.Some? <==> AriaInvalid(t).Some?
    ensures r.Some? ==> r.value == "t-name-error"
  {
    if ShowsNameError(t) then Some("t-name-error") else None
  }

  /** `disabled={creating || !createName.trim()}`. */
  function SubmitDisabled(t: Team): (r: bool)
    ensures r <==> t.creating || !Text.HasContent(t.form.name)
  {
    Forms.OneRequiredField(t.creating, t.form.name);
    Forms.CreateDisabled(t.creating, [t.form.name])
  }

  /** While the error shows, the form cannot be sent; the button is also
      disabled before the field has been visited, when no error shows. */
  lemma ErrorImpliesDisabled(t: Team)
    ensures ShowsNameError(t) ==> SubmitDisabled(t)
    ensures !t.nameTouched ==> !ShowsNameError(t)
  {
  }

  /** Typing into the name field. */
  function TypeName(t: Team, name: string): (r: Team)
    ensures r.form.name == name && r.form.role == t.form.role && r.form.status == t.form.status
    ensures r.nameTouched == t.nameTouched && r.editingId == t.editingId
  {
    t.(form := t.form.(name := name))
  }

  /** Leaving the name field marks it touched. */
  function Blur(t: Team): (r: Team)
    ensures r.nameTouched
    ensures r.(nameTouched := t.nameTouched) == t
  {
    t.(nameTouched := true)
  }

  /** A whitespace-only name shows the error once the field is left, and
      never enables the button. */
  lemma BlankNameAfterBlur(t: Team, name: string)
    requires !Text.HasContent(name)
    ensures ShowsNameError(Blur(TypeName(t, name)))
    ensures SubmitDisabled(TypeName(t, name))
  {
  }

  /** `handleCreate` once the request is answered: a success clears the name
      and its touched flag, puts role and status back to their defaults and
      reloads the list (`reload`), which clears the error unless the reload
      itself fails; a failure keeps the form and shows the message. */
  function CreateDone(t: Team, outcome: Outcome, reload: Outcome): (r: Team)
    ensures !r.creating
    ensures outcome.Ok? ==> r.form == Forms.InitialUserForm && !r.nameTouched
    ensures outcome.Ok? && reload.Ok? ==> r.error.None?
    ensures outcome.Ok? && reload.Err? ==> r.error == Some(reload.message)
    ensures outcome.Err? ==> r.form == t.form && r.nameTouched == t.nameTouched && r.error == Some(outcome.message)
    ensures r.editingId == t.editingId
  {
    match outcome
    case Ok =>
      t.(form := Forms.ResetUserForm(t.form), nameTouched := false, creating := false, error := ErrorAfter(reload))
    case Err(m) =>
      t.(creating := false, error := Some(m))
  }

  /** After a successful create no error shows and the button is disabled
      again until a new name is typed. */
  lemma CreateResetsForm(t: Team, reload: Outcome)
    ensures var r := CreateDone(t, Ok, reload);
      !ShowsNameError(r) && SubmitDisabled(r) && r.form == Initial.form
  {
    assert !Text.HasContent(Forms.InitialUserForm.name);
  }

  // ---------------------------------------------------------------------
  // Editing
  // ---------------------------------------------------------------------

  /** `startEdit`: the row of `u` becomes editable, starting from its stored
      role and status. */
  function StartEdit(t: Team, u: User): (r: Team)
    ensures r.editingId == Some(u.id) && r.editRole == u.role && r.editStatus == u.status
    ensures r.form == t.form && r.nameTouched == t.nameTouched
  {
    t.(editingId := Some(u.id), editRole := u.role, editStatus := u.status)
  }

  /** Choosing a role or a status in the editor. */
  function ChooseRole(t: Team, role: Forms.Role): (r: Team)
    ensures r.editRole == role && r.(editRole := t.editRole) == t
  {
    t.(editRole := role)
  }

  function ChooseStatus(t: Team, status: Forms.UserStatus): (r: Team)
    ensures r.editStatus == status && r.(editStatus := t.editStatus) == t
  {
    t.(editStatus := status)
  }

  /** Choosing a role or a status for the member about to be created. */
  function ChooseCreateRole(t: Team, role: Forms.Role): (r: Team)
    ensures r.form.role == role && r.(form := t.form) == t
    ensures r.form.(role := t.form.role) == t.form
  {
    t.(form := t.form.(role := role))
  }

  function ChooseCreateStatus(t: Team, status: Forms.UserStatus): (r: Team)
    ensures r.form.status == status && r.(form := t.form) == t
    ensures r.form.(status := t.form.status) == t.form
  {
    t.(form := t.form.(status := status))
  }

  /** The create form's selects never decide whether the name message
      shows or the button is enabled, and a successful create puts them
      back to Viewer and active. */
  lemma CreateSelectsKeepValidity(t: Team, role: Forms.Role, status: Forms.UserStatus, reload: Outcome)
    ensures var c := ChooseCreateStatus(ChooseCreateRole(t, role), status);
      && ShowsNameError(c) == ShowsNameError(t)
      && SubmitDisabled(c) == SubmitDisabled(t)
      && c.form.role == role && c.form.status == status
      && CreateDone(c, Ok, reload).form.role == Forms.Viewer
      && CreateDone(c, Ok, reload).form.status == Forms.Active
  {
  }

  /** What an edit action sends to the API: nothing, or an update of one
      user with a role-and-status patch. */
  datatype Request = NoRequest | Update(id: string, patch: Patch)

  datatype EditResult = EditResult(team: Team, sent: Request)

  /** `cancelEdit`: the editor closes and nothing is sent, so the stored
      user keeps its values. */
  function CancelEdit(t: Team): (r: EditResult)
    ensures r.sent.NoRequest?
    ensures r.team.editingId.None?
    ensures r.team.form == t.form && r.team.error == t.error
  {
    EditResult(t.(editingId := None), NoRequest)
  }

  /** `saveEdit(id)`: sends the chosen role and status for `id`; on success
      the editor closes and the list is reloaded (`reload`), which clears any
      earlier message unless the reload fails; on failure the editor stays
      open and the message shows. */
  function SaveEdit(t: Team, id: string, outcome: Outcome, reload: Outcome): (r: EditResult)
    ensures r.sent == Update(id, Patch(t.editRole, t.editStatus))
    ensures outcome.Ok? ==> r.team.editingId.None?
    ensures outcome.Ok? && reload.Ok? ==> r.team.error.None?
    ensures outcome.Ok? && reload.Err? ==> r.team.error == Some(reload.message)
    ensures outcome.Err? ==> r.team.editingId == t.editingId && r.team.error == Some(outcome.message)
    ensures r.team.form == t.form
  {
    match outcome
    case Ok => EditResult(t.(editingId := None, error := ErrorAfter(reload)), Update(id, Patch(t.editRole, t.editStatus)))
    case Err(m) => EditResult(t.(error := Some(m)), Update(id, Patch(t.editRole, t.editStatus)))
  }

  /** A message left by a failed save is gone once a later save and its
      reload succeed, and the editor is closed. */
  lemma RetryClearsError(t: Team, id: string, failure: string, reload: Outcome)
    ensures var failed := SaveEdit(t, id, Err(failure), reload).team;
      && failed.error == Some(failure)
      && var r := SaveEdit(failed, id, Ok, Ok).team;
      r.error.None? && r.editingId.None?
  {
  }

  /** A user updated with a patch: the role and status come from the patch,
      everything else, the name included, stays as stored. This is the
      meaning the panel relies on when it sends only `{role, status}`; the
      backend's `users.update` is not part of this model. */
  function Apply(u: User, p: Patch): (r: User)
    ensures r.id == u.id && r.name == u.name
    ensures r.role == p.role && r.status == p.status
  {
    u.(role := p.role, status := p.status)
  }

  /** Opening the editor and saving without a change sends the user's own
      role and status back, so applying it changes nothing; choosing a role
      first changes the role alone. */
  lemma SaveWithoutChanges(t: Team, u: User, role: Forms.Role, outcome: Outcome, reload: Outcome)
    ensures var s := SaveEdit(StartEdit(t, u), u.id, outcome, reload).sent;
      s.Update? && s.id == u.id && Apply(u, s.patch) == u
    ensures var s := SaveEdit(ChooseRole(StartEdit(t, u), role), u.id, outcome, reload).sent;
      s.Update? && Apply(u, s.patch) == u.(role := role)
  {
  }

  /** Opening the editor and cancelling closes it and sends nothing. */
  lemma CancelAfterStart(t: Team, u: User)
    ensures var r := CancelEdit(StartEdit(t, u));
      r.sent.NoRequest? && r.team.editingId.None? && r.team.form == t.form
  {
  }
}

=== FILE: csv.dfy ===
/**
 * CSV writing as the payments export does it: RFC 4180-style quoting
 * (section 2 of RFC 4180, rules 6 and 7) with LF in place of CRLF. A field
 * holding a comma, a double quote or an LF is enclosed in double quotes,
 * and each double quote inside it is written twice; a CR alone does not
 * cause quoting. Records are separated by a single LF.
 *
 * The reader below is the inverse the writer is judged against: it parses
 * fields, records and whole documents, and the round-trip lemmas show that
 * whatever the writer produces reads back as exactly the fields it was given.
 */
module Csv {
  import opened Wrappers
  import Text

  /** The field must be enclosed in quotes. */
  predicate NeedsQuoting(s: string) {
    ',' in s || '"' in s || '\n' in s
  }

  /** `s.replace(/"/g, '""')`. */
  function DoubleQuotes(s: string): string {
    if s == [] then []
    else (if s[0] == '"' then ['"', '"'] else [s[0]]) + DoubleQuotes(s[1..])
  }

  /** One field as written to the file. */
  function EscapeField(s: string): string {
    if NeedsQuoting(s) then ['"'] + (DoubleQuotes(s) + ['"']) else s
  }

  /** Every field of a record, escaped (`vals.map(...)`). */
  function EscapeAll(fields: seq<string>): (r: seq<string>)
    ensures |r| == |fields|
    ensures forall i :: 0 <= i < |fields| ==> r[i] == EscapeField(fields[i])
  {
    if fields == [] then [] else [EscapeField(fields[0])] + EscapeAll(fields[1..])
  }

  /** One record: escaped fields joined by commas. */
  function EncodeRecord(fields: seq<string>): string {
    Text.Join(EscapeAll(fields), ',')
  }

  /** Several records, each written as one line. */
  function EncodeAll(rows: seq<seq<string>>): (r: seq<string>)
    ensures |r| == |rows|
    ensures forall i :: 0 <= i < |rows| ==> r[i] == EncodeRecord(rows[i])
  {
    if rows == [] then [] else [EncodeRecord(rows[0])] + EncodeAll(rows[1..])
  }

  /** Several records joined by LF. */
  function EncodeDocument(rows: seq<seq<string>>): string {
    Text.Join(EncodeAll(rows), '\n')
  }

  // ---------------------------------------------------------------------
  // Reader
  // ---------------------------------------------------------------------

  /** Reads the inside of a quoted field, just after its opening quote.
      Gives the field's value and the text after the closing quote; None
      when the closing quote is missing. */
  function ReadQuoted(s: string): (r: Option<(string, string)>)
    ensures r.Some? ==> |r.value.1| < |s|
  {
    if s == [] then None
    else if s[0] == '"' then
      if |s| >= 2 && s[1] == '"' then
        match ReadQuoted(s[2..])
        case None => None
        case Some((f, rest)) => Some((['"'] + f, rest))
      else Some(([], s[1..]))
    else
      match ReadQuoted(s[1..])
      case None => None
      case Some((f, rest)) => Some(([s[0]] + f, rest))
  }

  /** Reads an unquoted field: everything up to the next comma or LF. */
  function ReadBare(s: string): (r: (string, string))
    ensures |r.1| <= |s|
  {
    if s == [] || s[0] == ',' || s[0] == '\n' then ([], s)
    else
      var (f, rest) := ReadBare(s[1..]);
      ([s[0]] + f, rest)
  }

  /** Reads one field, quoted or not; the rest of the text follows it. */
  function ReadField(s: string): (r: Option<(string, string)>)
    ensures r.Some? ==> |r.value.1| <= |s|
  {
    if s != [] && s[0] == '"' then ReadQuoted(s[1..]) else Some(ReadBare(s))
  }

  /** Reads one record; the rest of the text is empty or starts with LF.
      None when a field is malformed (an unclosed quote, or text after a
      closing quote). */
  function ReadRecord(s: string): (r: Option<(seq<string>, string)>)
    ensures r.Some? ==> |r.value.1| <= |s|
    decreases |s|
  {
    match ReadField(s)
    case None => None
    case Some((f, rest)) =>
      if rest == [] || rest[0] == '\n' then Some(([f], rest))
      else if rest[0] == ',' then
        match ReadRecord(rest[1..])
        case None => None
        case Some((fs, tail)) => Some(([f] + fs, tail))
      else None
  }

  /** Reads a whole document: records separated by LF. */
  function ReadDocument(s: string): Option<seq<seq<string>>>
    decreases |s|
  {
    match ReadRecord(s)
    case None => None
    case Some((rec, rest)) =>
      if rest == [] then Some([rec])
      else
        match ReadDocument(rest[1..])
        case None => None
        case Some(recs) => Some([rec] + recs)
  }

  // ---------------------------------------------------------------------
  // Round trips
  // ---------------------------------------------------------------------

  lemma AppendAssoc<T>(a: seq<T>, b: seq<T>, c: seq<T>)
    ensures (a + b) + c == a + (b + c)
  {
  }

  /** The quoted reader turns a doubled quote into one quote of the value. */
  lemma ReadQuotedPairStep(f: string, tail: string)
    requires f != [] && f[0] == '"'
    requires ReadQuoted(DoubleQuotes(f[1..]) + (['"'] + tail)) == Some((f[1..], tail))
    ensures ReadQuoted(DoubleQuotes(f) + (['"'] + tail)) == Some((f, tail))
  {
    var inner := DoubleQuotes(f[1..]) + (['"'] + tail);
    AppendAssoc(['"', '"'], DoubleQuotes(f[1..]), ['"'] + tail);
    var s := ['"', '"'] + inner;
    assert s[2..] == inner;
    assert ['"'] + f[1..] == f;
  }

  /** The quoted reader copies any other character into the value. */
  lemma ReadQuotedCharStep(f: string, tail: string)
    requires f != [] && f[0] != '"'
    requires ReadQuoted(DoubleQuotes(f[1..]) + (['"'] + tail)) == Some((f[1..], tail))
    ensures ReadQuoted(DoubleQuotes(f) + (['"'] + tail)) == Some((f, tail))
  {
    var inner := DoubleQuotes(f[1..]) + (['"'] + tail);
    AppendAssoc([f[0]], DoubleQuotes(f[1..]), ['"'] + tail);
    var s := [f[0]] + inner;
    assert s[1..] == inner;
    assert [f[0]] + f[1..] == f;
  }

  /** A doubled-quote body followed by the closing quote reads back as the
      original field, as long as no quote follows the closing one. */
  lemma {:induction false} ReadQuotedDoubled(f: string, tail: string)
    requires tail == [] || tail[0] != '"'
    ensures ReadQuoted(DoubleQuotes(f) + (['"'] + tail)) == Some((f, tail))
  {
    if f == [] {
      assert DoubleQuotes(f) + (['"'] + tail) == ['"'] + tail;
      assert (['"'] + tail)[1..] == tail;
    } else {
      ReadQuotedDoubled(f[1..], tail);
      if f[0] == '"' {
        ReadQuotedPairStep(f, tail);
      } else {
        ReadQuotedCharStep(f, tail);
      }
    }
  }

  /** The bare reader copies a character that is not a separator. */
  lemma ReadBareStep(f: string, tail: string)
    requires f != [] && f[0] != ',' && f[0] != '\n'
    requires ReadBare(f[1..] + tail) == (f[1..], tail)
    ensures ReadBare(f + tail) == (f, tail)
  {
    assert (f + tail)[1..] == f[1..] + tail;
    assert [f[0]] + f[1..] == f;
  }

  /** A field with no comma or LF reads back unchanged as a bare field. */
  lemma {:induction false} ReadBarePlain(f: string, tail: string)
    requires ',' !in f && '\n' !in f
    requires tail == [] || tail[0] == ',' || tail[0] == '\n'
    ensures ReadBare(f + tail) == (f, tail)
  {
    if f == [] {
      assert f + tail == tail;
    } else {
      assert f[0] in f;
      assert forall c :: c in f[1..] ==> c in f;
      ReadBarePlain(f[1..], tail);
      ReadBareStep(f, tail);
    }
  }

  /** An escaped field reads back as the original field, whatever it holds. */
  lemma {:induction false} ReadEscapedField(f: string, tail: string)
    requires tail == [] || tail[0] == ',' || tail[0] == '\n'
    ensures ReadField(EscapeField(f) + tail) == Some((f, tail))
  {
    if NeedsQuoting(f) {
      var d := DoubleQuotes(f);
      var body := d + (['"'] + tail);
      AppendAssoc(d, ['"'], tail);
      AppendAssoc(['"'], d + ['"'], tail);
      assert EscapeField(f) + tail == ['"'] + body;
      assert (['"'] + body)[1..] == body;
      ReadQuotedDoubled(f, tail);
    } else {
      ReadBarePlain(f, tail);
    }
  }

  /** A record of several fields is the first escaped field, a comma and
      the record of the others. */
  lemma EncodeRecordCons(fields: seq<string>)
    requires |fields| >= 2
    ensures EncodeRecord(fields) == EscapeField(fields[0]) + [','] + EncodeRecord(fields[1..])
  {
    var es := EscapeAll(fields);
    assert EscapeAll(fields[1..]) == es[1..];
    Text.JoinCons(es, ',');
  }

  /** Reading a record of several fields first yields the first field,
      followed by the comma and the rest of the record. */
  lemma ReadEncodedFirst(fields: seq<string>, tail: string)
    requires |fields| >= 2
    ensures ReadField(EncodeRecord(fields) + tail) ==
      Some((fields[0], [','] + (EncodeRecord(fields[1..]) + tail)))
  {
    var e := EscapeField(fields[0]);
    var r := EncodeRecord(fields[1..]);
    EncodeRecordCons(fields);
    AppendAssoc(e + [','], r, tail);
    AppendAssoc(e, [','], r + tail);
    ReadEscapedField(fields[0], [','] + (r + tail));
  }

  /** After a field and a comma the reader goes on with the next field. */
  lemma ReadRecordComma(s: string, f: string, after: string)
    requires ReadField(s) == Some((f, [','] + after))
    ensures ReadRecord(s) ==
      match ReadRecord(after)
      case None => None
      case Some((fs, tail)) => Some(([f] + fs, tail))
  {
    assert ([','] + after)[1..] == after;
  }

  /** The first field is read, then the comma, then the remaining fields. */
  lemma ReadEncodedStep(fields: seq<string>, tail: string)
    requires |fields| >= 2
    requires ReadRecord(EncodeRecord(fields[1..]) + tail) == Some((fields[1..], tail))
    ensures ReadRecord(EncodeRecord(fields) + tail) == Some((fields, tail))
  {
    ReadEncodedFirst(fields, tail);
    ReadRecordComma(EncodeRecord(fields) + tail, fields[0], EncodeRecord(fields[1..]) + tail);
    assert [fields[0]] + fields[1..] == fields;
  }

  /** A record of one field is that field, escaped. */
  lemma ReadEncodedSingle(f: string, tail: string)
    requires tail == [] || tail[0] == '\n'
    ensures ReadRecord(EncodeRecord([f]) + tail) == Some(([f], tail))
  {
    ReadEscapedField(f, tail);
    assert EscapeAll([f]) == [EscapeField(f)];
  }

  /** A written record reads back as its fields. */
  lemma {:induction false} ReadEncodedRecord(fields: seq<string>, tail: string)
    requires |fields| >= 1
    requires tail == [] || tail[0] == '\n'
    ensures ReadRecord(EncodeRecord(fields) + tail) == Some((fields, tail))
  {
    if |fields| == 1 {
      ReadEncodedSingle(fields[0], tail);
      assert [fields[0]] == fields;
    } else {
      ReadEncodedRecord(fields[1..], tail);
      ReadEncodedStep(fields, tail);
    }
  }

  /** A document of several records is the first record, an LF and the
      document of the others. */
  lemma EncodeDocumentCons(rows: seq<seq<string>>)
    requires |rows| >= 2
    ensures EncodeDocument(rows) == EncodeRecord(rows[0]) + (['\n'] + EncodeDocument(rows[1..]))
  {
    var lines := EncodeAll(rows);
    assert EncodeAll(rows[1..]) == lines[1..];
    Text.JoinCons(lines, '\n');
    AppendAssoc(lines[0], ['\n'], EncodeDocument(rows[1..]));
  }

  /** After a record and an LF the reader goes on with the next record. */
  lemma ReadDocumentNewline(s: string, rec: seq<string>, after: string)
    requires ReadRecord(s) == Some((rec, ['\n'] + after))
    ensures ReadDocument(s) ==
      match ReadDocument(after)
      case None => None
      case Some(recs) => Some([rec] + recs)
  {
    assert (['\n'] + after)[1..] == after;
  }

  /** The first record is read, then the LF, then the remaining records. */
  lemma ReadDocumentStep(rows: seq<seq<string>>)
    requires |rows| >= 2 && |rows[0]| >= 1
    requires ReadDocument(EncodeDocument(rows[1..])) == Some(rows[1..])
    ensures ReadDocument(EncodeDocument(rows)) == Some(rows)
  {
    var after := EncodeDocument(rows[1..]);
    EncodeDocumentCons(rows);
    ReadEncodedRecord(rows[0], ['\n'] + after);
    ReadDocumentNewline(EncodeDocument(rows), rows[0], after);
    assert [rows[0]] + rows[1..] == rows;
  }

  /** Every non-empty list of non-empty records survives a write and a read. */
  lemma {:induction false} ReadEncodedDocument(rows: seq<seq<string>>)
    requires |rows| >= 1
    requires forall i :: 0 <= i < |rows| ==> |rows[i]| >= 1
    ensures ReadDocument(EncodeDocument(rows)) == Some(rows)
  {
    if |rows| == 1 {
      ReadEncodedRecord(rows[0], []);
      assert EncodeAll(rows) == [EncodeRecord(rows[0])];
      assert EncodeDocument(rows) == EncodeRecord(rows[0]) + [];
      assert [rows[0]] == rows;
    } else {
      ReadEncodedDocument(rows[1..]);
      ReadDocumentStep(rows);
    }
  }

  /** Unescaping a single field: strip the outer quotes and collapse `""`.
      None when the text is not one well-formed field. */
  function UnescapeField(s: string): Option<string> {
    match ReadField(s)
    case Some((f, rest)) => if rest == [] then Some(f) else None
    case None => None
  }

  /** Escaping is undone by unescaping, so no two fields are written alike. */
  lemma UnescapeEscaped(f: string)
    ensures UnescapeField(EscapeField(f)) == Some(f)
  {
    ReadEscapedField(f, []);
    assert EscapeField(f) + [] == EscapeField(f);
  }

  /** Number of double quotes in a text. */
  function CountQuotes(s: string): nat {
    if s == [] then 0 else (if s[0] == '"' then 1 else 0) + CountQuotes(s[1..])
  }

  /** Doubling adds one character per quote. */
  lemma {:induction false} DoubleQuotesLength(s: string)
    ensures |DoubleQuotes(s)| == |s| + CountQuotes(s)
  {
    if s != [] {
      DoubleQuotesLength(s[1..]);
    }
  }

  /** The shape of an escaped field: a field that needs quoting is written
      as a quote, its text with every quote doubled, and a closing quote;
      any other field is written as it is and never starts with a quote. */
  lemma EscapedFieldShape(s: string)
    ensures var r := EscapeField(s);
      && (NeedsQuoting(s) ==> |r| == |s| + CountQuotes(s) + 2 && r[0] == '"' && r[|r| - 1] == '"')
      && (!NeedsQuoting(s) ==> r == s && (r == [] || r[0] != '"'))
  {
    DoubleQuotesLength(s);
    if !NeedsQuoting(s) && s != [] {
      assert s[0] in s;
    }
  }
}

=== FILE: dashboard.dfy ===
/**
 * The home page's widget grid (`app/page.tsx`): the configured modules are
 * filtered to the visible ones, sorted by their `order` and mapped to grid
 * items whose id is the module key and whose content is the widget that
 * key selects.
 *
 * `Array.prototype.sort` is stable, so modules with the same `order` keep
 * their configuration order; the sort is modelled as a stable insertion
 * sort and its result is characterised independently of how it works: it
 * is ordered, it is a permutation of its input, and for every `order` value
 * it keeps the modules of that value in their original order.
 */
module Dashboard {
  import opened Wrappers

  datatype Module = Module(key: string, visible: bool, order: int)

  /** The widgets `renderModule` can produce. */
  datatype Widget =
    | AnalyticsWidget | UsersTable | NotificationsFeed | EmailsWidget
    | FeedbacksWidget | PaymentsWidget | CalendarWidget | SubscriptionsWidget
    | ChatsWidget | ApisWidget | MonitoringWidget | LanguagesWidget | SettingsWidget

  /** A grid cell: its id, and its content (None for `null`). */
  datatype GridItem = GridItem(id: string, content: Option<Widget>)

  // ---------------------------------------------------------------------
  // renderModule
  // ---------------------------------------------------------------------

  /** The dashboard key each widget is registered under. */
  function KeyOf(w: Widget): string {
    match w
    case AnalyticsWidget => "analytics"
    case UsersTable => "users"
    case NotificationsFeed => "notifications"
    case EmailsWidget => "emails"
    case FeedbacksWidget => "feedbacks"
    case PaymentsWidget => "payments"
    case CalendarWidget => "calendar"
    case SubscriptionsWidget => "subscriptions"
    case ChatsWidget => "chats"
    case ApisWidget => "apis"
    case MonitoringWidget => "monitoring"
    case LanguagesWidget => "languages"
    case SettingsWidget => "settings"
  }

  /** `renderModule(key)`: the widget of a known key, None for any other. */
  function RenderModule(key: string): (r: Option<Widget>)
    ensures r.Some? ==> KeyOf(r.value) == key
  {
    if key == "analytics" then Some(AnalyticsWidget)
    else if key == "users" then Some(UsersTable)
    else if key == "notifications" then Some(NotificationsFeed)
    else if key == "emails" then Some(EmailsWidget)
    else if key == "feedbacks" then Some(FeedbacksWidget)
    else if key == "payments" then Some(PaymentsWidget)
    else if key == "calendar" then Some(CalendarWidget)
    else if key == "subscriptions" then Some(SubscriptionsWidget)
    else if key == "chats" then Some(ChatsWidget)
    else if key == "apis" then Some(ApisWidget)
    else if key == "monitoring" then Some(MonitoringWidget)
    else if key == "languages" then Some(LanguagesWidget)
    else if key == "settings" then Some(SettingsWidget)
    else None
  }

  /** Every widget is rendered for its own key, so the thirteen keys select
      thirteen different widgets. */
  lemma RenderModuleInverse(w: Widget)
    ensures RenderModule(KeyOf(w)) == Some(w)
  {
    match w
    case AnalyticsWidget =>
    case UsersTable =>
    case NotificationsFeed =>
    case EmailsWidget =>
    case FeedbacksWidget =>
    case PaymentsWidget =>
    case CalendarWidget =>
    case SubscriptionsWidget =>
    case ChatsWidget =>
    case ApisWidget =>
    case MonitoringWidget =>
    case LanguagesWidget =>
    case SettingsWidget =>
  }

  // ---------------------------------------------------------------------
  // The pipeline
  // ---------------------------------------------------------------------

  /** `.filter(m => m.visible)`: keeps the visible modules, each as often as
      it occurs; `VisibleWithOrder` shows the filter keeps their order. */
  function Visible(ms: seq<Module>): (r: seq<Module>)
    ensures forall m :: multiset(r)[m] == if m.visible then multiset(ms)[m] else 0
    ensures forall i :: 0 <= i < |r| ==> r[i].visible
  {
    if ms == [] then []
    else
      assert ms == [ms[0]] + ms[1..];
      (if ms[0].visible then [ms[0]] else []) + Visible(ms[1..])
  }

  /** Non-decreasing `order`. */
  predicate Ordered(s: seq<Module>) {
    forall i, j :: 0 <= i < j < |s| ==> s[i].order <= s[j].order
  }

  /** Puts `m` in front of the first module whose order is not smaller. */
  function Insert(m: Module, s: seq<Module>): (r: seq<Module>)
    ensures multiset(r) == multiset(s) + multiset{m}
  {
    if s == [] || m.order <= s[0].order then [m] + s
    else
      assert s == [s[0]] + s[1..];
      [s[0]] + Insert(m, s[1..])
  }

  /** Every module of `s` has order at least `b`. */
  predicate AllAtLeast(s: seq<Module>, b: int) {
    forall i :: 0 <= i < |s| ==> b <= s[i].order
  }

  lemma OrderedCons(x: Module, t: seq<Module>)
    requires Ordered(t) && AllAtLeast(t, x.order)
    ensures Ordered([x] + t)
  {
    var r := [x] + t;
    forall i, j | 0 <= i < j < |r|
      ensures r[i].order <= r[j].order
    {
      assert r[j] == t[j - 1];
      if i > 0 {
        assert r[i] == t[i - 1];
      }
    }
  }

  lemma OrderedSplit(s: seq<Module>, b: int)
    requires Ordered(s) && s != [] && b <= s[0].order
    ensures AllAtLeast(s, b)
    ensures Ordered(s[1..]) && AllAtLeast(s[1..], s[0].order)
  {
  }

  /** Inserting a module above a lower bound keeps every module above it. */
  lemma {:induction false} InsertAtLeast(m: Module, s: seq<Module>, b: int)
    requires AllAtLeast(s, b) && b <= m.order
    ensures AllAtLeast(Insert(m, s), b)
  {
    if s == [] || m.order <= s[0].order {
      var r := [m] + s;
      forall i | 0 <= i < |r|
        ensures b <= r[i].order
      {
        if i > 0 {
          assert r[i] == s[i - 1];
        }
      }
    } else {
      InsertAtLeast(m, s[1..], b);
      var t := Insert(m, s[1..]);
      var r := [s[0]] + t;
      forall i | 0 <= i < |r|
        ensures b <= r[i].order
      {
        if i > 0 {
          assert r[i] == t[i - 1];
        }
      }
    }
  }

  /** Inserting into an ordered list keeps it ordered. */
  lemma {:induction false} InsertOrdered(m: Module, s: seq<Module>)
    requires Ordered(s)
    ensures Ordered(Insert(m, s))
  {
    if s == [] {
      OrderedCons(m, s);
    } else if m.order <= s[0].order {
      OrderedSplit(s, m.order);
      OrderedCons(m, s);
    } else {
      OrderedSplit(s, s[0].order);
      InsertOrdered(m, s[1..]);
      InsertAtLeast(m, s[1..], s[0].order);
      OrderedCons(s[0], Insert(m, s[1..]));
    }
  }

  /** `.sort((a, b) => a.order - b.order)`. */
  function SortByOrder(ms: seq<Module>): (r: seq<Module>)
    ensures multiset(r) == multiset(ms)
    ensures Ordered(r)
  {
    if ms == [] then []
    else
      assert ms == [ms[0]] + ms[1..];
      InsertOrdered(ms[0], SortByOrder(ms[1..]));
      Insert(ms[0], SortByOrder(ms[1..]))
  }

  /** The modules of one `order` value, in sequence order. */
  function WithOrder(s: seq<Module>, k: int): seq<Module> {
    if s == [] then []
    else (if s[0].order == k then [s[0]] else []) + WithOrder(s[1..], k)
  }

  lemma WithOrderCons(x: Module, s: seq<Module>, k: int)
    ensures WithOrder([x] + s, k) == (if x.order == k then [x] else []) + WithOrder(s, k)
  {
    assert ([x] + s)[0] == x;
    assert ([x] + s)[1..] == s;
  }

  /** Inserting passes over smaller orders only, so among the modules of
      its own order the inserted one comes first. */
  lemma {:induction false} InsertWithOrder(m: Module, s: seq<Module>, k: int)
    ensures WithOrder(Insert(m, s), k) == (if m.order == k then [m] else []) + WithOrder(s, k)
  {
    if s == [] || m.order <= s[0].order {
      WithOrderCons(m, s, k);
    } else {
      InsertWithOrder(m, s[1..], k);
      WithOrderCons(s[0], Insert(m, s[1..]), k);
      WithOrderCons(s[0], s[1..], k);
      assert [s[0]] + s[1..] == s;
    }
  }

  /** The sort is stable: for every order value it keeps the modules of
      that value in their original order. */
  lemma {:induction false} SortIsStable(ms: seq<Module>, k: int)
    ensures WithOrder(SortByOrder(ms), k) == WithOrder(ms, k)
  {
    if ms != [] {
      SortIsStable(ms[1..], k);
      InsertWithOrder(ms[0], SortByOrder(ms[1..]), k);
    }
  }

  lemma VisibleCons(x: Module, s: seq<Module>)
    ensures Visible([x] + s) == (if x.visible then [x] else []) + Visible(s)
  {
    assert ([x] + s)[0] == x;
    assert ([x] + s)[1..] == s;
  }

  /** The filter keeps configuration order: for every order value, the
      visible modules of that value in the order they were configured. */
  lemma {:induction false} VisibleWithOrder(ms: seq<Module>, k: int)
    ensures WithOrder(Visible(ms), k) == Visible(WithOrder(ms, k))
  {
    if ms != [] {
      var x := ms[0];
      var rest := ms[1..];
      assert ms == [x] + rest;
      VisibleWithOrder(rest, k);
      VisibleCons(x, rest);
      WithOrderCons(x, rest, k);
      var w := WithOrder(rest, k);
      if x.visible && x.order == k {
        WithOrderCons(x, Visible(rest), k);
        VisibleCons(x, w);
      } else if x.visible {
        WithOrderCons(x, Visible(rest), k);
        assert WithOrder(ms, k) == w;
      } else if x.order == k {
        assert Visible(ms) == Visible(rest);
        VisibleCons(x, w);
        assert Visible([x] + w) == Visible(w);
      } else {
        assert Visible(ms) == Visible(rest);
        assert WithOrder(ms, k) == w;
      }
    }
  }

  /** `.map(m => ({id: m.key, content: renderModule(m.key)}))`. */
  function ToItems(ms: seq<Module>): (r: seq<GridItem>)
    ensures |r| == |ms|
    ensures forall i :: 0 <= i < |ms| ==> r[i].id == ms[i].key && r[i].content == RenderModule(ms[i].key)
  {
    if ms == [] then [] else [GridItem(ms[0].key, RenderModule(ms[0].key))] + ToItems(ms[1..])
  }

  /** The modules behind the grid, in grid order; a missing list counts as
      empty (`cfg.modules || []`). */
  function Layout(modules: Option<seq<Module>>): seq<Module> {
    SortByOrder(Visible(modules.GetOr([])))
  }

  /** The grid items of the home page. */
  function Items(modules: Option<seq<Module>>): seq<GridItem> {
    ToItems(Layout(modules))
  }

  /** What the home page promises of its grid: one item per visible module
      and none for a hidden one, items in non-decreasing order, ties in
      configuration order, each item's id the key of its module and its
      content the widget of that key. */
  lemma ItemsProperties(modules: Option<seq<Module>>, k: int)
    ensures var ms := modules.GetOr([]);
      var lay := Layout(modules);
      && (forall m :: multiset(lay)[m] == if m.visible then multiset(ms)[m] else 0)
      && Ordered(lay)
      && WithOrder(lay, k) == Visible(WithOrder(ms, k))
      && |Items(modules)| == |lay|
      && (forall i :: 0 <= i < |lay| ==> Items(modules)[i].id == lay[i].key)
      && (forall i :: 0 <= i < |lay| ==> Items(modules)[i].content == RenderModule(lay[i].key))
  {
    SortIsStable(Visible(modules.GetOr([])), k);
    VisibleWithOrder(modules.GetOr([]), k);
  }

  /** Without a module list there is nothing on the grid. */
  lemma NoModulesNoItems()
    ensures Items(None) == []
  {
  }
}

=== FILE: forms.dfy ===
/**
 * The create forms of the list pages: their fields, the values they start
 * with and are reset to after a successful create, when their submit
 * button is enabled, and the translation keys the pages use for the
 * entities' enumerated values.
 *
 * A required field counts as filled when `trim()` leaves something of it,
 * so a field of spaces or line breaks alone keeps the button disabled.
 */
module Forms {
  import opened Wrappers
  import Text
  import PaymentsExport

  datatype Role = Admin | Editor | Viewer
  datatype UserStatus = Active | Inactive
  datatype ReadStatus = Unread | Read

  // ---------------------------------------------------------------------
  // Enablement
  // ---------------------------------------------------------------------

  /** Every required field survives `trim()` non-empty. */
  function AllFilled(required: seq<string>): (r: bool)
    ensures r <==> forall i :: 0 <= i < |required| ==> Text.HasContent(required[i])
  {
    if required == [] then true
    else
      Text.TrimEmptyIff(required[0]);
      Text.Trim(required[0]) != [] && AllFilled(required[1..])
  }

  /** `disabled={creating || !a.trim() || ...}`: the submit button is
      disabled while a create is running or while some required field is
      blank. */
  function CreateDisabled(creating: bool, required: seq<string>): (r: bool)
    ensures r <==> creating || exists i :: 0 <= i < |required| && !Text.HasContent(required[i])
  {
    creating || !AllFilled(required)
  }

  /** A form with a single required field can be submitted exactly when no
      create is running and the field holds a non-blank character. */
  lemma OneRequiredField(creating: bool, field: string)
    ensures CreateDisabled(creating, [field]) <==> creating || !Text.HasContent(field)
  {
    if !creating && !Text.HasContent(field) {
      assert !Text.HasContent([field][0]);
    }
  }

  /** A form with two required fields can be submitted exactly when no
      create is running and both hold a non-blank character. */
  lemma TwoRequiredFields(creating: bool, a: string, b: string)
    ensures CreateDisabled(creating, [a, b]) <==> creating || !Text.HasContent(a) || !Text.HasContent(b)
  {
    if !creating && !Text.HasContent(a) {
      assert !Text.HasContent([a, b][0]);
    }
    if !creating && !Text.HasContent(b) {
      assert !Text.HasContent([a, b][1]);
    }
  }

  // ---------------------------------------------------------------------
  // The forms
  // ---------------------------------------------------------------------

  datatype UserForm = UserForm(name: string, role: Role, status: UserStatus)
  datatype NotificationForm = NotificationForm(title: string, status: ReadStatus)
  datatype EmailForm = EmailForm(subject: string, sender: string, status: ReadStatus)
  datatype PaymentForm = PaymentForm(
    customer: string,
    amount: string,
    currency: PaymentsExport.Currency,
    status: PaymentsExport.PaymentStatus)

  /** The `useState` defaults of each create form. */
  const InitialUserForm: UserForm := UserForm("", Viewer, Active)
  const InitialNotificationForm: NotificationForm := NotificationForm("", Unread)
  const InitialEmailForm: EmailForm := EmailForm("", "", Unread)
  const InitialPaymentForm: PaymentForm :=
    PaymentForm("", "", PaymentsExport.EUR, PaymentsExport.Succeeded)

  /** The required fields of each form, in the order the button tests them. */
  function UserRequired(f: UserForm): seq<string> { [f.name] }
  function NotificationRequired(f: NotificationForm): seq<string> { [f.title] }
  function EmailRequired(f: EmailForm): seq<string> { [f.subject, f.sender] }
  function PaymentRequired(f: PaymentForm): seq<string> { [f.customer, f.amount] }

  /** `resetCreate` of the users page: the form is back to its defaults. */
  function ResetUserForm(f: UserForm): (r: UserForm)
    ensures r == InitialUserForm
    ensures r.name == [] && r.role == Viewer && r.status == Active
  {
    f.(name := "", role := Viewer, status := Active)
  }

  /** `resetCreate` of the notifications page. */
  function ResetNotificationForm(f: NotificationForm): (r: NotificationForm)
    ensures r == InitialNotificationForm
    ensures r.title == [] && r.status == Unread
  {
    f.(title := "", status := Unread)
  }

  /** `resetCreate` of the emails page. */
  function ResetEmailForm(f: EmailForm): (r: EmailForm)
    ensures r == InitialEmailForm
    ensures r.subject == [] && r.sender == [] && r.status == Unread
  {
    f.(subject := "", sender := "", status := Unread)
  }

  /** `resetCreate` of the payments page. */
  function ResetPaymentForm(f: PaymentForm): (r: PaymentForm)
    ensures r == InitialPaymentForm
    ensures r.customer == [] && r.amount == []
    ensures r.currency == PaymentsExport.EUR && r.status == PaymentsExport.Succeeded
  {
    f.(customer := "", amount := "", currency := PaymentsExport.EUR, status := PaymentsExport.Succeeded)
  }

  /** A freshly reset form cannot be submitted until its required fields
      are filled in again. */
  lemma ResetFormsDisabled(u: UserForm, n: NotificationForm, e: EmailForm, p: PaymentForm)
    ensures CreateDisabled(false, UserRequired(ResetUserForm(u)))
    ensures CreateDisabled(false, NotificationRequired(ResetNotificationForm(n)))
    ensures CreateDisabled(false, EmailRequired(ResetEmailForm(e)))
    ensures CreateDisabled(false, PaymentRequired(ResetPaymentForm(p)))
  {
    OneRequiredField(false, "");
    TwoRequiredFields(false, "", "");
  }

  /** What a create submission leaves behind, once its request is answered. */
  datatype CreateResult<F> = CreateResult(form: F, toFirstPage: bool, creating: bool, error: Option<string>)

  /** `handleCreate`: on success the form is reset, the list goes back to
      page 1 and is fetched again (`refetch`), and the fetch clears the error
      unless it fails itself; on failure the form keeps what was typed and
      the message is shown. Either way `creating` ends false. */
  function AfterCreate<F>(form: F, initial: F, outcome: Outcome, refetch: Outcome): (r: CreateResult<F>)
    ensures r.toFirstPage <==> outcome.Ok?
    ensures !r.creating
    ensures outcome.Ok? ==> r.form == initial
    ensures outcome.Ok? && refetch.Ok? ==> r.error.None?
    ensures outcome.Ok? && refetch.Err? ==> r.error == Some(refetch.message)
    ensures outcome.Err? ==> r.form == form && r.error == Some(outcome.message)
  {
    match outcome
    case Ok => CreateResult(initial, true, false, ErrorAfter(refetch))
    case Err(m) => CreateResult(form, false, false, Some(m))
  }

  /** After a successful create every form is back to its initial value,
      so its submit button is disabled until the fields are filled again;
      after a failure the button is as it was before. */
  lemma AfterCreateDisablesSubmit(u: UserForm, n: NotificationForm, e: EmailForm, p: PaymentForm, m: string, refetch: Outcome)
    ensures var r := AfterCreate(u, InitialUserForm, Ok, refetch);
      r.form == InitialUserForm && CreateDisabled(r.creating, UserRequired(r.form))
    ensures var r := AfterCreate(n, InitialNotificationForm, Ok, refetch);
      r.form == InitialNotificationForm && CreateDisabled(r.creating, NotificationRequired(r.form))
    ensures var r := AfterCreate(e, InitialEmailForm, Ok, refetch);
      r.form == InitialEmailForm && CreateDisabled(r.creating, EmailRequired(r.form))
    ensures var r := AfterCreate(p, InitialPaymentForm, Ok, refetch);
      r.form == InitialPaymentForm && CreateDisabled(r.creating, PaymentRequired(r.form))
    ensures var r := AfterCreate(p, InitialPaymentForm, Err(m), refetch);
      CreateDisabled(r.creating, PaymentRequired(r.form)) == CreateDisabled(false, PaymentRequired(p))
  {
    ResetFormsDisabled(u, n, e, p);
  }

  // ---------------------------------------------------------------------
  // Labels
  // ---------------------------------------------------------------------

  /** `mapRole`: the translation key of each role. */
  function RoleLabelKey(r: Role): (k: string)
    ensures RoleOfLabelKey(k) == Some(r)
  {
    match r
    case Admin => "roles.admin"
    case Editor => "roles.editor"
    case Viewer => "roles.viewer"
  }

  /** The role a translation key names. */
  function RoleOfLabelKey(k: string): Option<Role> {
    if k == "roles.admin" then Some(Admin)
    else if k == "roles.editor" then Some(Editor)
    else if k == "roles.viewer" then Some(Viewer)
    else None
  }

  /** Different roles never share a label. */
  lemma RoleLabelsDistinct(a: Role, b: Role)
    ensures RoleLabelKey(a) == RoleLabelKey(b) <==> a == b
  {
    if RoleLabelKey(a) == RoleLabelKey(b) {
      assert RoleOfLabelKey(RoleLabelKey(a)) == RoleOfLabelKey(RoleLabelKey(b));
    }
  }

  /** `mapStatus` of the users page. */
  function UserStatusLabelKey(s: UserStatus): (k: string)
    ensures UserStatusOfLabelKey(k) == Some(s)
  {
    match s
    case Active => "status.active"
    case Inactive => "status.inactive"
  }

  function UserStatusOfLabelKey(k: string): Option<UserStatus> {
    if k == "status.active" then Some(Active)
    else if k == "status.inactive" then Some(Inactive)
    else None
  }

  /** `mapStatus` of the notifications and emails pages: the unread label for
      `unread`, the read label for anything else. */
  function ReadStatusLabelKey(s: ReadStatus): (k: string)
    ensures ReadStatusOfLabelKey(k) == Some(s)
  {
    match s
    case Unread => "status.unread"
    case Read => "status.read"
  }

  function ReadStatusOfLabelKey(k: string): Option<ReadStatus> {
    if k == "status.unread" then Some(Unread)
    else if k == "status.read" then Some(Read)
    else None
  }

  /** `mapStatus` of the payments page. */
  function PaymentStatusLabelKey(s: PaymentsExport.PaymentStatus): (k: string)
    ensures PaymentStatusOfLabelKey(k) == Some(s)
  {
    match s
    case Succeeded => "status.succeeded"
    case Pending => "status.pending"
    case Failed => "status.failed"
    case Refunded => "status.refunded"
  }

  function PaymentStatusOfLabelKey(k: string): Option<PaymentsExport.PaymentStatus> {
    if k == "status.succeeded" then Some(PaymentsExport.Succeeded)
    else if k == "status.pending" then Some(PaymentsExport.Pending)
    else if k == "status.failed" then Some(PaymentsExport.Failed)
    else if k == "status.refunded" then Some(PaymentsExport.Refunded)
    else None
  }
}

=== FILE: list_view.dfy ===
/**
 * The list pages (users, notifications, emails, payments, subscriptions)
 * share one control panel and one pager. Their state is the current page,
 * the controls that select what is fetched, whether a fetch is running and
 * the number of pages the last answer reported (None before any answer).
 *
 * A page that has fewer controls (users: search and page size only) simply
 * never receives the events of the ones it lacks.
 */
module ListView {
  import opened Wrappers

  datatype SortDir = Asc | Desc

  /** The values the fetch depends on, besides the page number. */
  datatype Controls = Controls(
    q: string,
    status: string,
    dateFrom: string,
    dateTo: string,
    sortBy: string,
    sortDir: SortDir,
    pageSize: int)

  datatype View = View(page: int, controls: Controls, loading: bool, totalPages: Option<int>)

  /** What the user can do to a list page. */
  datatype Event =
    | Search(q: string)
    | FilterStatus(status: string)
    | FromDate(date: string)
    | ToDate(date: string)
    | SortColumn(column: string)
    | SortDirection(dir: SortDir)
    | PageSize(size: int)
    | Previous
    | Next

  predicate IsControlEvent(e: Event) {
    !e.Previous? && !e.Next?
  }

  /** `data?.totalPages ?? 1`: the page count shown and used by the pager. */
  function ShownTotal(v: View): int {
    v.totalPages.GetOr(1)
  }

  /** `disabled` of the Previous button. */
  predicate PreviousDisabled(v: View) {
    v.loading || ShownTotal(v) <= 1 || v.page <= 1
  }

  /** `disabled` of the Next button. */
  predicate NextDisabled(v: View) {
    v.loading || ShownTotal(v) <= 1 || v.page >= ShownTotal(v)
  }

  /** The controls after a control event: only the one it names is set. */
  function SetControl(c: Controls, e: Event): Controls
    requires IsControlEvent(e)
  {
    match e
    case Search(q) => c.(q := q)
    case FilterStatus(s) => c.(status := s)
    case FromDate(d) => c.(dateFrom := d)
    case ToDate(d) => c.(dateTo := d)
    case SortColumn(k) => c.(sortBy := k)
    case SortDirection(d) => c.(sortDir := d)
    case PageSize(n) => c.(pageSize := n)
  }

  /** The pager's range: a page between 1 and the shown number of pages
      (page 1 when the count is 0). */
  predicate InRange(v: View) {
    1 <= v.page && v.page <= (if ShownTotal(v) > 1 then ShownTotal(v) else 1)
  }

  /** One user event. Every control's `onChange` sets the page back to 1
      together with the control; Previous is `max(1, p - 1)`, Next is
      `p + 1`, and a disabled button does nothing. */
  function Step(v: View, e: Event): (r: View)
    ensures r.loading == v.loading && r.totalPages == v.totalPages
    ensures IsControlEvent(e) ==> r.page == 1
    ensures !IsControlEvent(e) ==> r.controls == v.controls
    ensures e.Previous? && v.page >= 1 ==> 1 <= r.page <= v.page
    ensures e.Next? ==> v.page <= r.page <= v.page + 1
    ensures InRange(v) ==> InRange(r)
  {
    match e
    case Previous =>
      if PreviousDisabled(v) then v else v.(page := if v.page - 1 > 1 then v.page - 1 else 1)
    case Next =>
      if NextDisabled(v) then v else v.(page := v.page + 1)
    case _ =>
      v.(page := 1, controls := SetControl(v.controls, e))
  }

  /** A control event changes that control alone. */
  lemma ControlEventChangesOnlyItself(v: View, e: Event)
    requires IsControlEvent(e)
    ensures var c := Step(v, e).controls;
      && (e.Search? ==> c.q == e.q && c.(q := v.controls.q) == v.controls)
      && (e.FilterStatus? ==> c.status == e.status && c.(status := v.controls.status) == v.controls)
      && (e.FromDate? ==> c.dateFrom == e.date && c.(dateFrom := v.controls.dateFrom) == v.controls)
      && (e.ToDate? ==> c.dateTo == e.date && c.(dateTo := v.controls.dateTo) == v.controls)
      && (e.SortColumn? ==> c.sortBy == e.column && c.(sortBy := v.controls.sortBy) == v.controls)
      && (e.SortDirection? ==> c.sortDir == e.dir && c.(sortDir := v.controls.sortDir) == v.controls)
      && (e.PageSize? ==> c.pageSize == e.size && c.(pageSize := v.controls.pageSize) == v.controls)
  {
  }

  /** The buttons are disabled exactly at the ends of the range: Previous
      moves whenever the page is above 1 and Next whenever it is below the
      last page, unless a fetch is running or there is a single page. */
  lemma PagerButtons(v: View)
    requires InRange(v) && !v.loading && ShownTotal(v) > 1
    ensures Step(v, Previous).page == v.page - 1 <==> v.page > 1
    ensures Step(v, Next).page == v.page + 1 <==> v.page < ShownTotal(v)
  {
  }

  /** Payments and emails clear the selection whenever the fetch they
      depend on changes, that is when the page or a control changes. */
  function SelectionAfter<T>(before: View, after: View, sel: seq<T>): (r: seq<T>)
    ensures r == sel || r == []
  {
    if before.page == after.page && before.controls == after.controls then sel else []
  }

  /** Every event that does something clears the selection: a control
      event unless it changes nothing, and an enabled pager button. */
  lemma EventClearsSelection<T>(v: View, e: Event, sel: seq<T>)
    ensures e.Previous? && !PreviousDisabled(v) ==> SelectionAfter(v, Step(v, e), sel) == []
    ensures e.Next? && !NextDisabled(v) ==> SelectionAfter(v, Step(v, e), sel) == []
    ensures IsControlEvent(e) && Step(v, e) != v ==> SelectionAfter(v, Step(v, e), sel) == []
    ensures SelectionAfter(v, Step(v, e), sel) == sel <==> Step(v, e) == v || sel == []
  {
  }

  // ---------------------------------------------------------------------
  // Request parameters
  // ---------------------------------------------------------------------

  /** `statusFilter === 'all' ? undefined : statusFilter`. */
  function StatusParam(filter: string): (r: Option<string>)
    ensures r.None? <==> filter == "all"
    ensures r.Some? ==> r.value == filter
  {
    if filter == "all" then None else Some(filter)
  }

  /** The filter a status parameter stands for. */
  function FilterOf(param: Option<string>): string {
    param.GetOr("all")
  }

  /** The status parameter and the filter determine each other. */
  lemma StatusParamRoundTrip(filter: string, param: Option<string>)
    ensures FilterOf(StatusParam(filter)) == filter
    ensures param != Some("all") ==> StatusParam(FilterOf(param)) == param
  {
  }

  const StartOfDay: string := "T00:00:00.000Z"
  const EndOfDay: string := "T23:59:59.999Z"

  /** The lower date bound sent: none for an empty input, otherwise the
      first millisecond of that day in UTC. */
  function FromBound(date: string): (r: Option<string>)
    ensures r.None? <==> date == []
    ensures r.Some? ==> |r.value| == |date| + 14 && r.value[..|date|] == date && r.value[|date|..] == StartOfDay
  {
    if date == [] then None else Some(date + StartOfDay)
  }

  /** The upper date bound sent: none for an empty input, otherwise the
      last millisecond of that day in UTC. */
  function ToBound(date: string): (r: Option<string>)
    ensures r.None? <==> date == []
    ensures r.Some? ==> |r.value| == |date| + 14 && r.value[..|date|] == date && r.value[|date|..] == EndOfDay
  {
    if date == [] then None else Some(date + EndOfDay)
  }

  /** The day a bound was made from: the bound without its time suffix. */
  function DayOf(bound: string): string {
    if |bound| >= 14 then bound[..|bound| - 14] else bound
  }

  /** Both bounds give back the day they were made from. */
  lemma BoundsRoundTrip(date: string)
    requires date != []
    ensures DayOf(FromBound(date).value) == date
    ensures DayOf(ToBound(date).value) == date
  {
  }

  /** Lexicographic order of strings, character by character. */
  predicate Before(a: string, b: string)
    decreases |a|
  {
    if a == [] then b != []
    else b != [] && (a[0] < b[0] || (a[0] == b[0] && Before(a[1..], b[1..])))
  }

  /** The same day's bounds are in order: the lower one sorts first. */
  lemma {:induction false} FromBeforeTo(date: string)
    requires date != []
    ensures Before(FromBound(date).value, ToBound(date).value)
  {
    CommonPrefixBefore(date, StartOfDay, EndOfDay);
  }

  lemma {:induction false} CommonPrefixBefore(p: string, a: string, b: string)
    requires |a| >= 2 && |b| >= 2 && a[0] == b[0] && a[1] < b[1]
    ensures Before(p + a, p + b)
    decreases |p|
  {
    if p == [] {
      assert p + a == a && p + b == b;
      assert a[1..][0] == a[1] && b[1..][0] == b[1];
    } else {
      assert (p + a)[1..] == p[1..] + a;
      assert (p + b)[1..] == p[1..] + b;
      CommonPrefixBefore(p[1..], a, b);
    }
  }

  // ---------------------------------------------------------------------
  // Column headers and cells
  // ---------------------------------------------------------------------

  /** `aria-sort` of a sortable column header. */
  function AriaSort(column: string, sortBy: string, dir: SortDir): (r: string)
    ensures r != "none" <==> sortBy == column
  {
    if sortBy == column then (if dir == Asc then "ascending" else "descending") else "none"
  }

  /** The direction an `aria-sort` value announces. */
  function DirOf(aria: string): Option<SortDir> {
    if aria == "ascending" then Some(Asc)
    else if aria == "descending" then Some(Desc)
    else None
  }

  /** Of two distinct sortable columns exactly one announces a sort, and it
      announces the chosen direction. */
  lemma OneSortedHeader(a: string, b: string, sortBy: string, dir: SortDir)
    requires a != b && (sortBy == a || sortBy == b)
    ensures (AriaSort(a, sortBy, dir) == "none") != (AriaSort(b, sortBy, dir) == "none")
    ensures DirOf(AriaSort(sortBy, sortBy, dir)) == Some(dir)
  {
  }

  /** What the end-date cell of a subscription shows. */
  datatype EndCell = Dash | Day(date: string)

  /** `s.end ? formatDate(s.end) : '-'`: a missing or empty end is a dash. */
  function EndCellOf(end: Option<string>): (r: EndCell)
    ensures r.Dash? <==> end.None? || end.value == []
    ensures r.Day? ==> r.date == end.value
  {
    match end
    case None => Dash
    case Some(d) => if d == [] then Dash else Day(d)
  }

  /** The end date a cell stands for: none for the dash. */
  function EndOf(c: EndCell): Option<string> {
    match c
    case Dash => None
    case Day(d) => Some(d)
  }

  /** The cell and the end date determine each other: a dash stands only for
      a missing (or empty) end date, and a date cell for that very date. */
  lemma EndCellRoundTrip(end: Option<string>, c: EndCell)
    ensures end != Some([]) ==> EndOf(EndCellOf(end)) == end
    ensures end == Some([]) ==> EndCellOf(end) == Dash
    ensures (c.Day? ==> c.date != []) ==> EndCellOf(EndOf(c)) == c
  {
  }
}

=== FILE: payments_export.dfy ===
/**
 * The payments page's CSV export (`exportCsv`): a fixed header line, then one
 * line per payment with its customer, amount, currency, status and time, each
 * field escaped by the RFC 4180-style rules of module Csv, lines joined by LF.
 *
 * Amounts are kept as a whole number of hundredths; `amount.toFixed(2)` is
 * modelled as the decimal rendering of that number with two fraction digits.
 */
module PaymentsExport {
  import opened Wrappers
  import Text
  import Csv
  import ListView

  datatype Currency = EUR | USD | GBP
  datatype PaymentStatus = Succeeded | Pending | Failed | Refunded

  datatype Payment = Payment(
    id: string,
    customer: string,
    cents: int,
    currency: Currency,
    status: PaymentStatus,
    time: string)

  function CurrencyCode(c: Currency): string {
    match c
    case EUR => "EUR"
    case USD => "USD"
    case GBP => "GBP"
  }

  function StatusName(s: PaymentStatus): string {
    match s
    case Succeeded => "succeeded"
    case Pending => "pending"
    case Failed => "failed"
    case Refunded => "refunded"
  }

  // ---------------------------------------------------------------------
  // Amounts
  // ---------------------------------------------------------------------

  predicate IsDigit(c: char) {
    '0' <= c <= '9'
  }

  predicate AllDigits(s: string) {
    forall i :: 0 <= i < |s| ==> IsDigit(s[i])
  }

  function Digit(d: nat): (c: char)
    requires d < 10
    ensures IsDigit(c)
  {
    (48 + d) as char
  }

  function DigitValue(c: char): (d: nat)
    requires IsDigit(c)
    ensures d < 10 && Digit(d) == c
  {
    (c as int - 48) as nat
  }

  /** Decimal rendering of a natural number, most significant digit first,
      without leading zeros. */
  function DecimalDigits(n: nat): (r: string)
    ensures |r| >= 1 && AllDigits(r)
    ensures n >= 10 ==> r[0] != '0'
  {
    if n < 10 then [Digit(n)] else DecimalDigits(n / 10) + [Digit(n % 10)]
  }

  /** The number a string of decimal digits denotes. */
  function DigitsValue(s: string): nat
    requires AllDigits(s)
  {
    if s == [] then 0 else DigitsValue(s[..|s| - 1]) * 10 + DigitValue(s[|s| - 1])
  }

  /** The decimal rendering of a number denotes that number. */
  lemma {:induction false} DigitsRoundTrip(n: nat)
    ensures DigitsValue(DecimalDigits(n)) == n
  {
    if n >= 10 {
      DigitsRoundTrip(n / 10);
      var r := DecimalDigits(n);
      assert r[..|r| - 1] == DecimalDigits(n / 10);
    }
  }

  /** `m.toFixed(2)` for a non-negative amount of `m` hundredths: the whole
      part, a point and exactly two fraction digits. */
  function FormatUnsigned(m: nat): (r: string)
    ensures |r| >= 4 && r[|r| - 3] == '.' && IsDigit(r[0])
    ensures AllDigits(r[..|r| - 3]) && IsDigit(r[|r| - 2]) && IsDigit(r[|r| - 1])
  {
    DecimalDigits(m / 100) + "." + [Digit(m % 100 / 10), Digit(m % 10)]
  }

  /** `amount.toFixed(2)` for an amount of `n` hundredths. */
  function FormatCents(n: int): (r: string)
    ensures |r| >= 4 && r[|r| - 3] == '.'
    ensures (r[0] == '-') <==> n < 0
  {
    if n < 0 then "-" + FormatUnsigned(-n) else FormatUnsigned(n)
  }

  /** Reads an unsigned `digits.dd` amount back into hundredths. */
  function ParseUnsignedCents(t: string): Option<nat> {
    if |t| >= 4 && t[|t| - 3] == '.' && AllDigits(t[..|t| - 3])
       && IsDigit(t[|t| - 2]) && IsDigit(t[|t| - 1])
    then Some(DigitsValue(t[..|t| - 3]) * 100 + DigitValue(t[|t| - 2]) * 10 + DigitValue(t[|t| - 1]))
    else None
  }

  /** Reads a formatted amount back into hundredths. */
  function ParseCents(s: string): Option<int> {
    if s != [] && s[0] == '-' then
      match ParseUnsignedCents(s[1..])
      case Some(v) => Some(0 - v)
      case None => None
    else
      match ParseUnsignedCents(s)
      case Some(v) => Some(v)
      case None => None
  }

  /** Reading `w.xy` gives back the whole part `w` and the digits `x`, `y`. */
  lemma ParseUnsignedParts(w: string, x: nat, y: nat)
    requires w != [] && AllDigits(w) && x < 10 && y < 10
    ensures ParseUnsignedCents(w + "." + [Digit(x), Digit(y)]) == Some(DigitsValue(w) * 100 + x * 10 + y)
  {
    var u := w + "." + [Digit(x), Digit(y)];
    assert u[..|u| - 3] == w;
    assert u[|u| - 2] == Digit(x) && u[|u| - 1] == Digit(y);
  }

  /** Whole part, tenths and hundredths put back together. */
  lemma CentsDecomposition(m: nat)
    ensures (m / 100) * 100 + (m % 100 / 10) * 10 + m % 10 == m
  {
  }

  /** The unsigned rendering denotes the amount it was made from. */
  lemma UnsignedRoundTrip(m: nat)
    ensures ParseUnsignedCents(FormatUnsigned(m)) == Some(m)
  {
    ParseUnsignedParts(DecimalDigits(m / 100), m % 100 / 10, m % 10);
    DigitsRoundTrip(m / 100);
    CentsDecomposition(m);
  }

  /** The formatted amount denotes exactly the amount it was made from. */
  lemma AmountRoundTrip(n: int)
    ensures ParseCents(FormatCents(n)) == Some(n)
  {
    if n < 0 {
      var u := FormatUnsigned(-n);
      UnsignedRoundTrip(-n);
      assert ("-" + u)[1..] == u;
    } else {
      UnsignedRoundTrip(n);
    }
  }

  /** The characters an amount is written with. */
  predicate AmountChar(c: char) {
    IsDigit(c) || c == '.' || c == '-'
  }

  /** A text made of amount characters is written as it is. */
  lemma AmountCharsUnquoted(s: string)
    requires forall i :: 0 <= i < |s| ==> AmountChar(s[i])
    ensures Csv.EscapeField(s) == s
  {
    if Csv.NeedsQuoting(s) {
      var i :| 0 <= i < |s| && (s[i] == ',' || s[i] == '"' || s[i] == '\n');
      assert false;
    }
  }

  /** An unsigned amount is digits and one point. */
  lemma FormatUnsignedChars(m: nat)
    ensures forall i :: 0 <= i < |FormatUnsigned(m)| ==> AmountChar(FormatUnsigned(m)[i])
  {
    var u := FormatUnsigned(m);
    var d := DecimalDigits(m / 100);
    forall i | 0 <= i < |u|
      ensures AmountChar(u[i])
    {
      if i < |d| {
        assert u[i] == d[i];
      }
    }
  }

  /** An amount is digits, a point and maybe a leading minus sign. */
  lemma FormatCentsChars(n: int)
    ensures forall i :: 0 <= i < |FormatCents(n)| ==> AmountChar(FormatCents(n)[i])
  {
    if n < 0 {
      var u := FormatUnsigned(-n);
      FormatUnsignedChars(-n);
      var r := "-" + u;
      forall i | 0 <= i < |r|
        ensures AmountChar(r[i])
      {
        if i > 0 {
          assert r[i] == u[i - 1];
        }
      }
    } else {
      FormatUnsignedChars(n);
    }
  }

  /** An amount never needs quoting. */
  lemma AmountNeverQuoted(n: int)
    ensures Csv.EscapeField(FormatCents(n)) == FormatCents(n)
  {
    FormatCentsChars(n);
    AmountCharsUnquoted(FormatCents(n));
  }

  // ---------------------------------------------------------------------
  // The export
  // ---------------------------------------------------------------------

  const Header: seq<string> := ["customer", "amount", "currency", "status", "time"]

  /** The five values of one data line, in column order. */
  function Fields(p: Payment): seq<string> {
    [p.customer, FormatCents(p.cents), CurrencyCode(p.currency), StatusName(p.status), p.time]
  }

  function Rows(items: seq<Payment>): (r: seq<seq<string>>)
    ensures |r| == |items|
    ensures forall i :: 0 <= i < |items| ==> r[i] == Fields(items[i])
  {
    if items == [] then [] else [Fields(items[0])] + Rows(items[1..])
  }

  /** The header line as written: the column names joined by commas. */
  lemma HeaderLineText()
    ensures Text.Join(Header, ',') == "customer,amount,currency,status,time"
  {
    var h := Header;
    assert h[4..] == ["time"];
    assert h[3..] == ["status", "time"];
    assert h[2..] == ["currency", "status", "time"];
    assert h[1..] == ["amount", "currency", "status", "time"];
    Text.JoinCons(h[3..], ',');
    assert h[3..][1..] == h[4..];
    Text.JoinCons(h[2..], ',');
    assert h[2..][1..] == h[3..];
    Text.JoinCons(h[1..], ',');
    assert h[1..][1..] == h[2..];
    Text.JoinCons(h, ',');
    calc {
      Text.Join(h, ',');
      "customer" + [','] + ("amount" + [','] + ("currency" + [','] + ("status" + [','] + "time")));
      "customer,amount,currency,status,time";
    }
  }

  predicate Lowercase(s: string) {
    forall i :: 0 <= i < |s| ==> 'a' <= s[i] <= 'z'
  }

  lemma LowercaseUnescaped(s: string)
    requires Lowercase(s)
    ensures Csv.EscapeField(s) == s
  {
    if Csv.NeedsQuoting(s) {
      var i :| 0 <= i < |s| && (s[i] == ',' || s[i] == '"' || s[i] == '\n');
      assert false;
    }
  }

  /** A column name is written as it is. */
  lemma ColumnUnescaped(i: nat)
    requires i < |Header|
    ensures Csv.EscapeField(Header[i]) == Header[i]
  {
    if i == 0 {
      LowercaseUnescaped("customer");
    } else if i == 1 {
      LowercaseUnescaped("amount");
    } else if i == 2 {
      LowercaseUnescaped("currency");
    } else if i == 3 {
      LowercaseUnescaped("status");
    } else {
      LowercaseUnescaped("time");
    }
  }

  /** No column name needs quoting. */
  lemma HeaderNeedsNoEscaping()
    ensures Csv.EscapeAll(Header) == Header
  {
    forall i | 0 <= i < |Header|
      ensures Csv.EscapeField(Header[i]) == Header[i]
    {
      ColumnUnescaped(i);
    }
  }

  /** The lines of the file: the header joined by commas, then each
      payment's escaped fields joined by commas. */
  function CsvLines(items: seq<Payment>): (lines: seq<string>)
    ensures |lines| == |items| + 1
    ensures lines[0] == "customer,amount,currency,status,time"
    ensures forall i :: 0 <= i < |items| ==> lines[i + 1] == Csv.EncodeRecord(Fields(items[i]))
  {
    HeaderLineText();
    [Text.Join(Header, ',')] + Csv.EncodeAll(Rows(items))
  }

  /** The text handed to the download: the lines joined by LF. */
  function ExportCsv(items: seq<Payment>): string {
    Text.Join(CsvLines(items), '\n')
  }

  /** The export is the CSV document of the header and the payments' rows
      (the header needs no escaping). */
  lemma ExportIsDocument(items: seq<Payment>)
    ensures ExportCsv(items) == Csv.EncodeDocument([Header] + Rows(items))
  {
    var rows := [Header] + Rows(items);
    HeaderNeedsNoEscaping();
    assert Csv.EncodeRecord(Header) == Text.Join(Header, ',');
    var lines := Csv.EncodeAll(rows);
    assert lines[0] == CsvLines(items)[0];
    assert forall i :: 1 <= i < |lines| ==> lines[i] == CsvLines(items)[i];
    assert lines == CsvLines(items);
  }

  /** Every row of the export has at least one field. */
  lemma ExportRowsNonEmpty(items: seq<Payment>)
    ensures forall i :: 0 <= i < |items| + 1 ==> |([Header] + Rows(items))[i]| >= 1
  {
  }

  /** Reading the export back gives the header, then each payment's five
      values in column order, one record per payment and nothing else. */
  lemma ExportReadsBack(items: seq<Payment>)
    ensures Csv.ReadDocument(ExportCsv(items)) == Some([Header] + Rows(items))
  {
    ExportIsDocument(items);
    ExportRowsNonEmpty(items);
    Csv.ReadEncodedDocument([Header] + Rows(items));
  }

  // ---------------------------------------------------------------------
  // The request behind the export and its failure
  // ---------------------------------------------------------------------

  /** The most payments the export asks for: it reads them all as one page. */
  const ExportPageSize: int := 10000

  /** The parameters of the list request the export makes. */
  datatype ListQuery = ListQuery(
    page: int,
    pageSize: int,
    q: string,
    status: Option<string>,
    dateFrom: Option<string>,
    dateTo: Option<string>,
    sortBy: string,
    sortDir: ListView.SortDir)

  /** The list request of `exportCsv`: the first page of up to 10000 payments
      under the search, filters and sort order the page shows; the page size
      chosen in the pager plays no part. */
  function ExportQuery(c: ListView.Controls): (r: ListQuery)
    ensures r.page == 1 && r.pageSize == ExportPageSize
    ensures r.q == c.q && r.sortBy == c.sortBy && r.sortDir == c.sortDir
    ensures ListView.FilterOf(r.status) == c.status
    ensures r.dateFrom.None? <==> c.dateFrom == ""
    ensures r.dateFrom.Some? ==> ListView.DayOf(r.dateFrom.value) == c.dateFrom
    ensures r.dateTo.None? <==> c.dateTo == ""
    ensures r.dateTo.Some? ==> ListView.DayOf(r.dateTo.value) == c.dateTo
  {
    ListView.StatusParamRoundTrip(c.status, ListView.StatusParam(c.status));
    DayBoundsRoundTrip(c.dateFrom);
    DayBoundsRoundTrip(c.dateTo);
    ListQuery(1, ExportPageSize, c.q, ListView.StatusParam(c.status),
              ListView.FromBound(c.dateFrom), ListView.ToBound(c.dateTo), c.sortBy, c.sortDir)
  }

  /** A chosen day survives being turned into a bound. */
  lemma DayBoundsRoundTrip(date: string)
    ensures date != "" ==> ListView.DayOf(ListView.FromBound(date).value) == date
    ensures date != "" ==> ListView.DayOf(ListView.ToBound(date).value) == date
  {
    if date != "" {
      ListView.BoundsRoundTrip(date);
    }
  }

  /** Two pages whose search, filters and sort agree send the same export
      request, whatever page size their pager shows. */
  lemma ExportQueryIgnoresPager(c: ListView.Controls, d: ListView.Controls)
    requires c.(pageSize := d.pageSize) == d
    ensures ExportQuery(c) == ExportQuery(d)
  {
  }

  /** What the list request answers: a page of payments, or the message of
      the error it failed with. */
  datatype Listing = Listed(items: seq<Payment>) | ListFailed(message: string)

  /** What pressing the export button leaves behind: the text of the
      download, if any, and the error the page shows. */
  datatype ExportResult = ExportResult(download: Option<string>, error: Option<string>)

  /** `exportCsv`: when the list request answers, the payments it returned
      are downloaded as CSV and the error shown before stays as it was (the
      export never clears it); when the request fails nothing is downloaded
      and its message is shown. */
  function RunExport(response: Listing, shown: Option<string>): (r: ExportResult)
    ensures r.download.Some? <==> response.Listed?
    ensures response.Listed? ==> r.error == shown
    ensures response.Listed? ==> Csv.ReadDocument(r.download.value) == Some([Header] + Rows(response.items))
    ensures response.ListFailed? ==> r.error == Some(response.message)
  {
    match response
    case Listed(items) =>
      ExportReadsBack(items);
      ExportResult(Some(ExportCsv(items)), shown)
    case ListFailed(m) => ExportResult(None, Some(m))
  }

  /** The first line of the file is the header: it starts the text and is
      followed by LF when there is any payment. */
  lemma HeaderIsFirstLine(items: seq<Payment>)
    ensures var text := ExportCsv(items);
      && "customer,amount,currency,status,time" <= text
      && (|items| == 0 ==> text == "customer,amount,currency,status,time")
      && (|items| > 0 ==> text[|"customer,amount,currency,status,time"|] == '\n')
  {
    var lines := CsvLines(items);
    if |items| > 0 {
      assert ExportCsv(items) == lines[0] + ['\n'] + Text.Join(lines[1..], '\n');
    }
  }
}

=== FILE: selection.dfy ===
/**
 * Row selection on the payments and emails pages. The selection is the list
 * `selectedIds`; the page is the list of ids of the rows on screen, or None
 * before the first page has arrived (`data` is null).
 *
 * The operations are list operations (`filter`, spread-append,
 * `Array.from(new Set(...))`); their contracts say what they do to the set
 * of selected ids, and the lemmas show that a selection without duplicates
 * stays without duplicates.
 */
module Selection {
  import opened Wrappers

  type Id = string

  /** No id occurs twice. */
  predicate Distinct(s: seq<Id>) {
    forall i, j :: 0 <= i < j < |s| ==> s[i] != s[j]
  }

  /** The ids of a list, as a set. */
  function Elems(s: seq<Id>): set<Id> {
    set x | x in s
  }

  // ---------------------------------------------------------------------
  // List primitives
  // ---------------------------------------------------------------------

  /** `sel.filter(x => !drop.includes(x))`, order kept. */
  function Except(sel: seq<Id>, drop: seq<Id>): (r: seq<Id>)
    ensures forall x :: x in r <==> x in sel && x !in drop
    ensures |r| <= |sel|
  {
    if sel == [] then []
    else (if sel[0] in drop then [] else [sel[0]]) + Except(sel[1..], drop)
  }

  /** Nothing is dropped from a list that shares no id with `drop`. */
  lemma {:induction false} ExceptNothing(sel: seq<Id>, drop: seq<Id>)
    requires forall x :: x in sel ==> x !in drop
    ensures Except(sel, drop) == sel
  {
    if sel != [] {
      assert sel[0] in sel;
      assert forall x :: x in sel[1..] ==> x in sel;
      ExceptNothing(sel[1..], drop);
      assert [sel[0]] + sel[1..] == sel;
    }
  }

  /** Filtering keeps the count of every id that is not dropped and
      removes every occurrence of the ones that are. */
  lemma {:induction false} ExceptCounts(sel: seq<Id>, drop: seq<Id>, x: Id)
    ensures multiset(Except(sel, drop))[x] == if x in drop then 0 else multiset(sel)[x]
  {
    if sel != [] {
      ExceptCounts(sel[1..], drop, x);
      var head := if sel[0] in drop then [] else [sel[0]];
      assert sel == [sel[0]] + sel[1..];
      assert multiset(sel) == multiset([sel[0]]) + multiset(sel[1..]);
      assert multiset(Except(sel, drop)) == multiset(head) + multiset(Except(sel[1..], drop));
    }
  }

  /** Filtering a list without duplicates leaves none. */
  lemma {:induction false} ExceptDistinct(sel: seq<Id>, drop: seq<Id>)
    requires Distinct(sel)
    ensures Distinct(Except(sel, drop))
  {
    if sel != [] {
      ExceptDistinct(sel[1..], drop);
      var rest := Except(sel[1..], drop);
      assert sel[0] !in sel[1..];
      assert sel[0] !in rest;
    }
  }

  /** Walks `xs`, appending each id not yet present: the insertion order
      of a JavaScript `Set` built from `acc` followed by `xs`. */
  function AddAll(acc: seq<Id>, xs: seq<Id>): (r: seq<Id>)
    ensures acc <= r
    ensures forall x :: x in r <==> x in acc || x in xs
    decreases xs
  {
    if xs == [] then acc
    else AddAll(if xs[0] in acc then acc else acc + [xs[0]], xs[1..])
  }

  /** Adding never introduces a duplicate. */
  lemma {:induction false} AddAllDistinct(acc: seq<Id>, xs: seq<Id>)
    requires Distinct(acc)
    ensures Distinct(AddAll(acc, xs))
    decreases xs
  {
    if xs != [] {
      var next := if xs[0] in acc then acc else acc + [xs[0]];
      AddAllDistinct(next, xs[1..]);
    }
  }

  /** Adding ids that are all new and pairwise distinct just appends them. */
  lemma {:induction false} AddAllFresh(acc: seq<Id>, xs: seq<Id>)
    requires Distinct(acc + xs)
    ensures AddAll(acc, xs) == acc + xs
    decreases xs
  {
    if xs != [] {
      assert xs[0] == (acc + xs)[|acc|];
      assert xs[0] !in acc by {
        forall i | 0 <= i < |acc|
          ensures acc[i] != xs[0]
        {
          assert acc[i] == (acc + xs)[i];
        }
      }
      assert acc + [xs[0]] + xs[1..] == acc + xs;
      AddAllFresh(acc + [xs[0]], xs[1..]);
    }
  }

  /** Building a set from two lists in a row is building it from the first
      and then adding the second. */
  lemma {:induction false} AddAllConcat(acc: seq<Id>, xs: seq<Id>, ys: seq<Id>)
    ensures AddAll(acc, xs + ys) == AddAll(AddAll(acc, xs), ys)
    decreases xs
  {
    if xs == [] {
      assert xs + ys == ys;
    } else {
      var next := if xs[0] in acc then acc else acc + [xs[0]];
      assert (xs + ys)[0] == xs[0];
      assert (xs + ys)[1..] == xs[1..] + ys;
      AddAllConcat(next, xs[1..], ys);
    }
  }

  /** `Array.from(new Set([...prev, ...ids]))`. */
  function Union(prev: seq<Id>, ids: seq<Id>): seq<Id> {
    AddAll([], prev + ids)
  }

  /** The union is the set union, without duplicates, and it keeps a
      duplicate-free `prev` in place as its prefix. */
  lemma UnionProperties(prev: seq<Id>, ids: seq<Id>)
    ensures Elems(Union(prev, ids)) == Elems(prev) + Elems(ids)
    ensures Distinct(Union(prev, ids))
    ensures Distinct(prev) ==> prev <= Union(prev, ids)
  {
    AddAllDistinct([], prev + ids);
    if Distinct(prev) {
      AddAllConcat([], prev, ids);
      assert [] + prev == prev;
      AddAllFresh([], prev);
    }
  }

  /** `items.every(it => sel.includes(it))`. */
  function EveryIn(ids: seq<Id>, sel: seq<Id>): (r: bool)
    ensures r <==> forall i :: 0 <= i < |ids| ==> ids[i] in sel
  {
    ids == [] || (ids[0] in sel && EveryIn(ids[1..], sel))
  }

  // ---------------------------------------------------------------------
  // The page operations
  // ---------------------------------------------------------------------

  /** `allOnPageSelected`: the header checkbox is ticked when a page is
      loaded, it is not empty, and every row on it is selected. */
  function AllOnPageSelected(page: Option<seq<Id>>, sel: seq<Id>): (r: bool)
    ensures r <==> page.Some? && |page.value| > 0 && forall i :: 0 <= i < |page.value| ==> page.value[i] in sel
  {
    match page
    case None => false
    case Some(ids) => |ids| > 0 && EveryIn(ids, sel)
  }

  /** `toggleSelectAllOnPage`: with every row of the page selected, the page's
      ids are removed; otherwise they are added without duplicates. Before a
      page has arrived nothing happens. */
  function ToggleAllOnPage(page: Option<seq<Id>>, sel: seq<Id>): (r: seq<Id>)
    ensures page.None? ==> r == sel
    ensures page.Some? && AllOnPageSelected(page, sel) ==> Elems(r) == Elems(sel) - Elems(page.value)
    ensures page.Some? && !AllOnPageSelected(page, sel) ==> Elems(r) == Elems(sel) + Elems(page.value)
  {
    match page
    case None => sel
    case Some(ids) =>
      if AllOnPageSelected(page, sel) then Except(sel, ids)
      else (UnionProperties(sel, ids); Union(sel, ids))
  }

  /** Toggling all on a loaded, non-empty page flips the header checkbox. */
  lemma ToggleAllFlips(page: Option<seq<Id>>, sel: seq<Id>)
    requires page.Some? && |page.value| > 0
    ensures AllOnPageSelected(page, ToggleAllOnPage(page, sel)) == !AllOnPageSelected(page, sel)
  {
    var ids := page.value;
    assert ids[0] in Elems(ids);
  }

  /** Ids that are not on the page are never touched by toggling all. */
  lemma ToggleAllOtherPages(page: Option<seq<Id>>, sel: seq<Id>, x: Id)
    requires page.None? || x !in page.value
    ensures x in ToggleAllOnPage(page, sel) <==> x in sel
  {
    assert x in Elems(sel) <==> x in sel;
    assert x in Elems(ToggleAllOnPage(page, sel)) <==> x in ToggleAllOnPage(page, sel);
  }

  /** When it adds, toggling all keeps the existing selection, in order,
      in front of the new ids. */
  lemma ToggleAllAddKeepsOrder(page: Option<seq<Id>>, sel: seq<Id>)
    requires page.Some? && !AllOnPageSelected(page, sel)
    requires Distinct(sel)
    ensures sel <= ToggleAllOnPage(page, sel)
  {
    UnionProperties(sel, page.value);
  }

  /** Toggling all keeps the selection free of duplicates. */
  lemma ToggleAllDistinct(page: Option<seq<Id>>, sel: seq<Id>)
    requires Distinct(sel)
    ensures Distinct(ToggleAllOnPage(page, sel))
  {
    if page.Some? {
      if AllOnPageSelected(page, sel) {
        ExceptDistinct(sel, page.value);
      } else {
        UnionProperties(sel, page.value);
      }
    }
  }

  /** `toggleSelectOne`: a selected id is removed, any other id is appended. */
  function ToggleOne(sel: seq<Id>, id: Id): (r: seq<Id>)
    ensures id in r <==> id !in sel
    ensures forall x :: x != id ==> (x in r <==> x in sel)
  {
    if id in sel then Except(sel, [id]) else sel + [id]
  }

  /** Selecting appends at the end; removing deletes every occurrence of
      the id and keeps the count of every other id. */
  lemma ToggleOneShape(sel: seq<Id>, id: Id)
    ensures id !in sel ==> ToggleOne(sel, id) == sel + [id]
    ensures id in sel ==> forall x :: multiset(ToggleOne(sel, id))[x] == if x == id then 0 else multiset(sel)[x]
  {
    if id in sel {
      forall x
        ensures multiset(ToggleOne(sel, id))[x] == if x == id then 0 else multiset(sel)[x]
      {
        ExceptCounts(sel, [id], x);
      }
    }
  }

  /** Toggling the same id twice gives back the same set of selected ids,
      and exactly the same list when the id was not selected. */
  lemma ToggleOneTwice(sel: seq<Id>, id: Id)
    ensures Elems(ToggleOne(ToggleOne(sel, id), id)) == Elems(sel)
    ensures id !in sel ==> ToggleOne(ToggleOne(sel, id), id) == sel
  {
    if id !in sel {
      var once := sel + [id];
      assert forall x :: x in sel ==> x !in [id];
      ExceptNothing(sel, [id]);
      assert once == sel + [id];
      assert Except(once, [id]) == Except(sel, [id]) + Except([id], [id]) by {
        ExceptAppend(sel, [id], [id]);
      }
    }
  }

  /** Filtering distributes over concatenation. */
  lemma {:induction false} ExceptAppend(a: seq<Id>, b: seq<Id>, drop: seq<Id>)
    ensures Except(a + b, drop) == Except(a, drop) + Except(b, drop)
  {
    if a == [] {
      assert a + b == b;
    } else {
      assert (a + b)[0] == a[0];
      assert (a + b)[1..] == a[1..] + b;
      ExceptAppend(a[1..], b, drop);
    }
  }

  /** Toggling one id keeps the selection free of duplicates. */
  lemma ToggleOneDistinct(sel: seq<Id>, id: Id)
    requires Distinct(sel)
    ensures Distinct(ToggleOne(sel, id))
  {
    if id in sel {
      ExceptDistinct(sel, [id]);
    }
  }

  // ---------------------------------------------------------------------
  // Bulk actions
  // ---------------------------------------------------------------------

  /** A bulk action: the ids sent (None when nothing was sent), the
      selection afterwards, and the error shown afterwards. */
  datatype BulkResult = BulkResult(sent: Option<seq<Id>>, selection: seq<Id>, error: Option<string>)

  /** `bulkMark` (emails) and the request part of `bulkDelete`: the whole
      selection is sent. On success the selection is emptied and the list
      is fetched again (`refetch`), which clears the error unless it fails
      itself; on failure the selection is kept and the message shows. */
  function BulkMark(sel: seq<Id>, outcome: Outcome, refetch: Outcome): (r: BulkResult)
    ensures r.sent == Some(sel)
    ensures outcome.Ok? ==> r.selection == []
    ensures outcome.Ok? && refetch.Ok? ==> r.error.None?
    ensures outcome.Ok? && refetch.Err? ==> r.error == Some(refetch.message)
    ensures outcome.Err? ==> r.selection == sel && r.error == Some(outcome.message)
  {
    match outcome
    case Ok => BulkResult(Some(sel), [], ErrorAfter(refetch))
    case Err(m) => BulkResult(Some(sel), sel, Some(m))
  }

  /** `bulkDelete` (payments and emails): unless the confirmation dialog is
      accepted nothing is sent and the page keeps its selection and the
      error it was showing (`shown`); once accepted it acts as a bulk mark. */
  function BulkDelete(confirmed: bool, sel: seq<Id>, shown: Option<string>, outcome: Outcome, refetch: Outcome): (r: BulkResult)
    ensures r.sent.Some? <==> confirmed
    ensures !confirmed ==> r.selection == sel && r.error == shown
    ensures confirmed && outcome.Ok? ==> r.selection == [] && r.error == ErrorAfter(refetch)
    ensures confirmed && outcome.Err? ==> r.selection == sel && r.error == Some(outcome.message)
  {
    if confirmed then BulkMark(sel, outcome, refetch) else BulkResult(None, sel, shown)
  }

  /** After a bulk action the selection is empty exactly when the action
      was carried out and succeeded, or it was empty already; otherwise it
      is unchanged. */
  lemma BulkClearsSelection(confirmed: bool, sel: seq<Id>, shown: Option<string>, outcome: Outcome, refetch: Outcome)
    ensures var r := BulkDelete(confirmed, sel, shown, outcome, refetch);
      && (r.selection == [] <==> (confirmed && outcome.Ok?) || sel == [])
      && (r.selection != [] ==> r.selection == sel)
      && (r.sent.Some? ==> r.sent.value == sel)
  {
  }

  /** A bulk action and the selection operations: after a successful one no
      page counts as fully selected and every row toggled in afterwards
      starts a fresh selection; after a failed or declined one the header
      checkbox of every page is as it was. */
  lemma BulkThenSelect(confirmed: bool, sel: seq<Id>, shown: Option<string>, outcome: Outcome, refetch: Outcome,
                       page: Option<seq<Id>>, id: Id)
    ensures var r := BulkDelete(confirmed, sel, shown, outcome, refetch);
      && (confirmed && outcome.Ok? ==> !AllOnPageSelected(page, r.selection) && ToggleOne(r.selection, id) == [id])
      && (!(confirmed && outcome.Ok?) ==> AllOnPageSelected(page, r.selection) == AllOnPageSelected(page, sel))
  {
    var r := BulkDelete(confirmed, sel, shown, outcome, refetch);
    if confirmed && outcome.Ok? && page.Some? && |page.value| > 0 {
      assert page.value[0] !in r.selection;
    }
  }
}

=== FILE: text.dfy ===
/**
 * String helpers shared by the page components: `String.prototype.trim`
 * (used by every create form to decide whether a field is filled in) and a
 * separator join (`Array.prototype.join`).
 */
module Text {

  /** The code points `trim` strips: ECMAScript WhiteSpace (TAB, VT, FF, ZWNBSP
      and the Unicode Zs category) and LineTerminator (LF, CR, LS, PS). */
  predicate IsTrimmable(c: char) {
    || c == '\t' || c == '\n' || c == '\U{000B}' || c == '\U{000C}' || c == '\r'
    || c == ' ' || c == '\U{00A0}' || c == '\U{1680}'
    || ('\U{2000}' <= c <= '\U{200A}')
    || c == '\U{2028}' || c == '\U{2029}' || c == '\U{202F}' || c == '\U{205F}'
    || c == '\U{3000}' || c == '\U{FEFF}'
  }

  /** The string holds at least one character `trim` keeps. */
  predicate HasContent(s: string) {
    exists i :: 0 <= i < |s| && !IsTrimmable(s[i])
  }

  /** Drops leading trimmable characters. */
  function TrimStart(s: string): (r: string)
    ensures |r| <= |s| && r == s[|s| - |r|..]
    ensures r == [] || !IsTrimmable(r[0])
    ensures forall i :: 0 <= i < |s| - |r| ==> IsTrimmable(s[i])
  {
    if s == [] || !IsTrimmable(s[0]) then s else TrimStart(s[1..])
  }

  /** Drops trailing trimmable characters. */
  function TrimEnd(s: string): (r: string)
    ensures |r| <= |s| && r == s[..|r|]
    ensures r == [] || !IsTrimmable(r[|r| - 1])
    ensures forall i :: |r| <= i < |s| ==> IsTrimmable(s[i])
  {
    if s == [] || !IsTrimmable(s[|s| - 1]) then s else TrimEnd(s[..|s| - 1])
  }

  /** `s[i..j]` is `s` with a trimmable prefix of length `i` and a
      trimmable suffix from `j` on cut away. */
  predicate CutsTrimmableEnds(s: string, i: int, j: int) {
    && 0 <= i <= j <= |s|
    && (forall k :: 0 <= k < i ==> IsTrimmable(s[k]))
    && (forall k :: j <= k < |s| ==> IsTrimmable(s[k]))
  }

  /** `s.trim()`: a slice of `s` whose cut-away ends are all trimmable and
      whose own ends are not. */
  function Trim(s: string): (r: string)
    ensures |r| <= |s|
    ensures r == [] || (!IsTrimmable(r[0]) && !IsTrimmable(r[|r| - 1]))
    ensures exists i, j :: CutsTrimmableEnds(s, i, j) && r == s[i..j]
  {
    TrimSlice(s);
    TrimEnd(TrimStart(s))
  }

  /** Where the trimmed text sits inside `s`. */
  lemma TrimSlice(s: string)
    ensures var i := |s| - |TrimStart(s)|;
      CutsTrimmableEnds(s, i, i + |TrimEnd(TrimStart(s))|)
      && TrimEnd(TrimStart(s)) == s[i..i + |TrimEnd(TrimStart(s))|]
  {
    var a := TrimStart(s);
    var r := TrimEnd(a);
    var i := |s| - |a|;
    assert a == s[i..];
    assert r == a[..|r|];
    forall k | i + |r| <= k < |s|
      ensures IsTrimmable(s[k])
    {
      assert s[k] == a[k - i];
    }
  }

  /** `!s.trim()`: trimming leaves nothing exactly when every character is
      trimmable, so a whitespace-only entry counts as empty. */
  lemma TrimEmptyIff(s: string)
    ensures Trim(s) == [] <==> !HasContent(s)
  {
    var a := TrimStart(s);
    if Trim(s) == [] {
      if a != [] {
        assert false;
      }
    } else {
      var r := Trim(s);
      assert r[0] == a[0];
      assert a[0] == s[|s| - |a|];
      assert !IsTrimmable(s[|s| - |a|]);
    }
  }

  /** `parts.join(sep)` for a one-character separator. */
  function Join(parts: seq<string>, sep: char): (r: string)
    ensures |parts| == 0 ==> r == []
    ensures |parts| == 1 ==> r == parts[0]
    ensures |parts| >= 1 ==> parts[0] <= r
  {
    if |parts| == 0 then []
    else if |parts| == 1 then parts[0]
    else parts[0] + [sep] + Join(parts[1..], sep)
  }

  /** Total length of a list of texts. */
  function TotalLength(parts: seq<string>): nat {
    if parts == [] then 0 else |parts[0]| + TotalLength(parts[1..])
  }

  /** A join holds every part and one separator between each two
      neighbours, and nothing else. */
  lemma {:induction false} JoinLength(parts: seq<string>, sep: char)
    requires |parts| >= 1
    ensures |Join(parts, sep)| == TotalLength(parts) + |parts| - 1
  {
    if |parts| >= 2 {
      JoinLength(parts[1..], sep);
    }
  }

  /** Unfolds a join of two or more parts: the first part, a separator, the
      rest. */
  lemma JoinCons(parts: seq<string>, sep: char)
    requires |parts| >= 2
    ensures Join(parts, sep) == parts[0] + [sep] + Join(parts[1..], sep)
  {
  }
}

=== FILE: ui_store.dfy ===
/**
 * The Redux store's `ui` slice: one flag saying whether the sidebar is
 * open, which starts open and is flipped by the `toggleSidebar` action.
 * Any other action reaches the slice's reducer and leaves it as it is.
 */
module UiStore {

  datatype UiState = UiState(sidebarOpen: bool)

  /** The actions the store receives; `Other` stands for every action the
      slice does not handle. */
  datatype Action = ToggleSidebar | Other

  /** `initialState` of the slice. */
  const InitialState: UiState := UiState(true)

  /** The `toggleSidebar` case reducer. */
  function Toggle(s: UiState): (r: UiState)
    ensures r.sidebarOpen == !s.sidebarOpen
    ensures r.(sidebarOpen := s.sidebarOpen) == s
  {
    s.(sidebarOpen := !s.sidebarOpen)
  }

  /** Toggling twice gives back the state it started from. */
  lemma ToggleInvolution(s: UiState)
    ensures Toggle(Toggle(s)) == s
  {
  }

  /** The slice reducer. */
  function Reduce(s: UiState, a: Action): (r: UiState)
    ensures a.Other? ==> r == s
    ensures a.ToggleSidebar? ==> r.sidebarOpen != s.sidebarOpen
  {
    match a
    case ToggleSidebar => Toggle(s)
    case Other => s
  }

  /** The state after a run of actions. */
  function Run(s: UiState, actions: seq<Action>): UiState
    decreases |actions|
  {
    if actions == [] then s else Run(Reduce(s, actions[0]), actions[1..])
  }

  /** How many of the actions are `toggleSidebar`. */
  function Toggles(actions: seq<Action>): nat {
    if actions == [] then 0
    else (if actions[0].ToggleSidebar? then 1 else 0) + Toggles(actions[1..])
  }

  /** After any run of actions the sidebar is as it started exactly when an
      even number of them toggled it. */
  lemma {:induction false} RunParity(s: UiState, actions: seq<Action>)
    ensures Run(s, actions).sidebarOpen == (s.sidebarOpen == (Toggles(actions) % 2 == 0))
    decreases |actions|
  {
    if actions != [] {
      RunParity(Reduce(s, actions[0]), actions[1..]);
    }
  }

  /** From the initial state, the sidebar is open exactly after an even
      number of toggles. */
  lemma OpenAfterEvenToggles(actions: seq<Action>)
    ensures Run(InitialState, actions).sidebarOpen <==> Toggles(actions) % 2 == 0
  {
    RunParity(InitialState, actions);
  }
}

=== FILE: wrappers.dfy ===
/** Optional values and API outcomes: the model's stand-ins for `null` /
    `undefined` in the dashboard's state and for a call to the mock API that
    either resolves or throws. */
module Wrappers {

  datatype Option<+T> = None | Some(value: T) {

    /** The value, or `default` when absent (the `??` operator). */
    function GetOr(default: T): T {
      match this
      case Some(v) => v
      case None => default
    }
  }

  /** How an awaited API call ended: it resolved, or it threw an error
      whose message the page shows. */
  datatype Outcome = Ok | Err(message: string)

  /** The error a page shows once a reload of its list has settled: the
      reload clears the error before its request and shows the message when
      that request fails. */
  function ErrorAfter(reload: Outcome): (r: Option<string>)
    ensures r.None? <==> reload.Ok?
    ensures r.Some? ==> r.value == reload.message
  {
    match reload
    case Ok => None
    case Err(m) => Some(m)
  }
}
